=== FILE: README.md ===
# Kiosk deck picker and mode machine — a Dafny model

This project models the decision logic of a pygame kiosk (`demoui.py`) and of
the gamepad bridge that runs next to a PowerPoint slideshow (`ppt_controller.py`).
The kiosk has five modes: loading, main menu, a minimized bar, a full-screen overlay
("bg2") and a deck picker. It plays a looping video when idle, launches
PowerPoint slideshows, and shows the decks in its directory as a paged thumbnail
grid. The thumbnails are kept in a hash-keyed cache.

The model is purely functional. Each piece of kiosk state is an immutable record.
Each transition is a pure function over an abstract event datatype. The file
system, the process table, the clock and the presentation engine are oracle
parameters.

| file | module | what it models |
|---|---|---|
| `picker.dfy` | `Picker` | the grid/toolbar navigation machine, page turns, the confirm dispatch |
| `loader.dfy` | `Loader` | the deck catalog filter, the one-deck-per-frame thumbnail cache step, a whole pass |
| `app.dfy` | `App` | the mode machine: the per-frame work, the inactivity rule, the per-mode event handlers, frames and runs |
| `controller.dfy` | `Controller` | the PowerPoint process poll, the gamepad-to-key table, the batch and the polling loop |
| `text.dfy` | `Text` | `str.lower` (ASCII), substring, `endswith`, and the root part of `os.path.splitext` |
| `wrappers.dfy` | `Wrappers` | `Option`, Python list indexing and `dict.get` |

Main results:

- **Picker confinement.** `Picker.RunKeepsConsistent` shows that after any
  sequence of picker inputs the selection is still a tile of the current page when
  the catalog is not empty, and page 0, index 0 otherwise. `toolbar_index` stays in
  0..3.
- **App invariant.** `App.RunKeeps` shows that every reachable kiosk state keeps
  the following:
  - the selected button is in 1..4;
  - the music plays only in the minimized bar;
  - a slideshow is active only in the picker;
  - the picker is consistent.
- **Cache write and crash safety.** `App.RunKeeps` also shows two more facts:
  - the cache file is written exactly when the run leaves the loading screen, so at
    most once (`App.CacheSavedAtMostOnce`);
  - once loading is done and the catalog is not empty, no input makes the kiosk
    raise an exception, provided video playback, window calls and process launches
    return normally.

Where the code does something one might not expect, the model follows the code:

- Entering the picker keeps the current page. The selection moves to that page's
  first tile. It does not reset to page 0.
- In the main menu, only the A button and mouse clicks reset the inactivity timer.
  The catch-all reset for key, button and mouse events (`demoui.py:609`) can never
  be reached, because all three event types are handled by earlier branches. So
  navigating with the arrows or the D-pad does not postpone the attention video.
- The minimized bar returns to the main menu only on a mouse click, D-pad Up or
  Escape. Any other device input only resets the timer.
- A cache file that does not parse raises an exception (`json.load` is not
  guarded). The model treats this as a crash (`Status.Crashed`). It does not
  treat the cache as empty.
- With an empty deck directory, pressing A on the picker's grid indexes
  `ppt_files[0]` and raises IndexError (`App.EmptyCatalogConfirmRaises`).
- Returning from the picker to the main menu does not reset the inactivity timer.
- A and X on the gamepad both send "pagedown", although the comment next to A says
  "previous slide".
- A video polls the event queue while it plays, and so takes every queued event
  with it. When the attention video plays, the A press that Enter posted in the
  previous frame is lost. When the feature video plays, any event posted earlier in
  the same batch is lost. Events handled after a video see the clock after it.

## Model

| member | source | states |
|---|---|---|
| Picker.MoveLeft | demoui.py:281-291 | page kept; toolbar Next→Home→Prev, Prev→grid, the selection unchanged whenever the focus starts on the toolbar; on the grid one tile back except at the page's first tile; never leaves the page; keeps the picker consistent |
| Picker.MoveRight | demoui.py:293-301 | page kept; on the grid one tile forward only while the next tile is on the page; toolbar Prev→Home→Next and stops at Next, the selection unchanged; keeps the picker consistent |
| Picker.MoveUp | demoui.py:303-312 | from the grid, focus goes to Prev exactly when the tile is in the page's top row, with the selection unchanged; below the top row the focus stays on the grid and the selection moves one row up, still on the page; any toolbar slot returns to the grid with the selection unchanged |
| Picker.MoveDown | demoui.py:314-326 | from the grid, focus goes to Prev exactly when `idx + 4` is past the page's last occupied tile, with the selection unchanged; otherwise the focus stays on the grid and the selection moves one row down, still on the page; any toolbar slot goes to Prev with the selection unchanged |
| Picker.NextPage | demoui.py:341-346 | no-op when `(page+1)*12 >= n`; otherwise page+1 with the selection on its first tile, which is below `n`; focus kept |
| Picker.PrevPage | demoui.py:348-353 | no-op at page 0; otherwise page-1 with the selection on its first tile; focus kept |
| Picker.Select | demoui.py:328-338 | Prev turns back, Home asks for the main menu, Next turns forward, any other focus launches the selected index; from a consistent state a launch comes from grid focus and its index is inside the catalog when the catalog is not empty |
| Picker.Apply | demoui.py:651-691 | each picker input keeps the picker consistent; directions never change the page |
| Picker.RunKeepsConsistent | demoui.py:281-353 | after any sequence of picker inputs, the focus is in 0..3 and the selection is a tile of the current page when the catalog is not empty, and page 0, index 0 otherwise |
| Picker.DirectionsKeepPage | demoui.py:281-326 | a sequence of only Left/Right/Up/Down inputs never changes the page |
| Picker.NextPageMovesIff | demoui.py:341-346 | the next-page guard agrees with the page count `ceil(n/12)`: the page advances exactly when a later page exists, and is otherwise a no-op |
| Picker.PrevPageMovesIff | demoui.py:348-353 | the page goes back exactly when it is above 0, and is otherwise a no-op |
| Picker.UpKeepsColumn | demoui.py:303-312 | an Up that stays on the grid moves one row up in the same column |
| Picker.DownKeepsColumn | demoui.py:314-326 | a Down that stays on the grid moves one row down in the same column |
| Picker.UpThenDown | demoui.py:303-326 | Down undoes an Up that stayed on the grid |
| Picker.DownThenUp | demoui.py:303-326 | Up undoes a Down that stayed on the grid |
| Picker.LeftThenRight | demoui.py:281-301 | Right undoes a Left that moved the selection |
| Picker.RightThenLeft | demoui.py:281-301 | Left undoes a Right that moved the selection |
| Picker.ToolbarRightThenLeft | demoui.py:283-301 | on Prev or Home, Left undoes Right |
| Picker.ToolbarLeftThenRight | demoui.py:283-301 | on Home or Next, Right undoes Left |
| Picker.NextThenPrev | demoui.py:341-353 | turning forward then back lands on the first tile of the starting page |
| Picker.PrevThenNext | demoui.py:341-353 | turning back then forward lands on the first tile of the starting page |
| Picker.DownFromPartialLastRow | demoui.py:314-324 | with 10 decks there is one page, and Down from tile 9 moves the focus to the toolbar |
| Loader.Catalog | demoui.py:447-450 | the catalog holds exactly the listing entries that end in ".ppt" or ".pptx"; a listing of decks only is kept whole |
| Loader.CatalogAppend | demoui.py:447-450 | the filter distributes over concatenation, so listing order is kept |
| Loader.CatalogDistinct | demoui.py:447-450 | a listing without repeats gives a catalog without repeats |
| Loader.Begin | demoui.py:436-453 | an unreadable cache file raises; otherwise the cache is the file's map (empty when there is no file), the catalog is filtered from the listing, the index is 0 and there are no thumbnails |
| Loader.ThumbnailName | demoui.py:474 | the image name is the deck's root, then `_thumbnail_`, the hash, and `.jpg` |
| Loader.ThumbnailNameDeterminesHash | demoui.py:474-477 | two image names of one deck are equal only when their hashes are equal, so a changed deck never reuses its old image |
| Loader.ProcessNext | demoui.py:470-495 | processes deck `files[index]` and advances the index by exactly 1; the engine is used exactly on a miss; a hit leaves the cache alone and records the thumbnail; a successful export sets `cache[f] := md5` and the thumbnail; a failed export changes neither map |
| Loader.ChangedDeckIsExported | demoui.py:476-491 | a deck whose hash differs from the cached one is always exported again |
| Loader.RunPass | demoui.py:470-503 | a pass over the remaining decks ends with the index at the catalog size and reports one progress count per deck, in order, each one more than the last |
| Loader.PassReportsEveryDeck | demoui.py:494-503 | a pass over N decks reports exactly N ticks, the last being N of N |
| Loader.ProcessNextEntry | demoui.py:476-491 | one tick gives the processed deck its thumbnail and current hash when it hits or exports, and leaves every other name's entries alone |
| Loader.PassEntry | demoui.py:470-495 | after a pass, a deck that hit or exported successfully has its thumbnail and current hash; a failed deck and every other name keep their entries, so stale cache entries survive |
| Text.Stem | demoui.py:474 | the root of `os.path.splitext`: a prefix of the name that ends just before its last '.', and only if some earlier character is not a '.' |
| Text.StemOfDeckName | demoui.py:474 | stripping a dot-free extension from a stem that is not all dots gives back the stem |
| Text.ContainsIffOccurs | ppt_controller.py:10 | the left-to-right substring scan agrees with the positional definition of "t occurs in s" |
| Text.Lower | ppt_controller.py:10 | `str.lower`: same length, each character lower-cased on its own |
| Wrappers.PyIndex | demoui.py:336-337 | Python list indexing: a value exactly for indexes in `-n..n-1`, counting from the end for negative ones; otherwise IndexError |
| Wrappers.Get | demoui.py:477 | `dict.get`: a value exactly when the key is present, and then the stored one |
| App.PlayBgm | demoui.py:178-184 | music starts, with exactly one start effect, exactly when its file exists and it is not already playing; otherwise nothing happens; the flag ends up on if it was on or the file exists |
| App.StopBgm | demoui.py:186-191 | the flag ends up false, with a stop effect only when music was playing |
| App.MusicIdempotent | demoui.py:178-191 | calling play or stop twice is the same as calling it once, and the second call has no effect |
| App.Restore | demoui.py:617-628 | leaving the minimized bar stops music that plays (one stop effect, only then), goes full screen, and shows the main menu, changing nothing else |
| App.LoadingWork | demoui.py:435-515 | first frame: reads the cache and builds the catalog exactly as `Loader.Begin` does, raising on an unreadable file; each later frame: the loader state is exactly one `Loader.ProcessNext` step; the frame after the last deck always writes the cache exactly once, resets the picker to (0,0,0), clears the slideshow flag and goes to the main menu; never touches the timer, the selected button, the music flag or the posted events |
| App.PollSlideshow | demoui.py:533-537 | the slideshow flag stays set only while PowerPoint runs; clearing it brings the window to the front |
| App.Inactivity | demoui.py:539-546 | fires only in the main menu or minimized bar, and only when `now - last > 5`; then shows the main menu, and from the bar stops music that plays and goes full screen; plays the attention video last and resets the timer to the post-video clock; otherwise changes nothing |
| App.Tick | demoui.py:434-546 | a loading tick begins the load, processes exactly one deck, or after the last deck writes the cache and opens the main menu; keeps the invariant, never enters the loading screen, writes the cache only when leaving it, and does not raise outside loading |
| App.Activate | demoui.py:574-589 | button 1 minimizes the window, then starts the music exactly when its file exists and it is not playing; 2 plays the feature video; 3 opens the overlay; 4 opens the picker on the current page's first tile with grid focus; other values do nothing |
| App.MenuKey | demoui.py:558-567 | Escape stops the kiosk; Right gives `min(4, selected+1)` and Left `max(1, selected-1)`, so the selection stays in 1..4; Enter queues an A press for the next frame; no other field changes |
| App.ActivateAndReset | demoui.py:574-608 | the button's activation followed by a timer restart (after the feature video for button 2); the selection, status and catalog are kept, the invariant holds and the cache is not written |
| App.MainMenuEvent | demoui.py:556-610 | a key goes to the menu-key rule; D-pad left and right move the selected button within 1..4; A activates the selected button; a click on button k selects and activates k; a click elsewhere only resets the timer; any other input changes nothing; keeps the invariant; never raises; only the A button or a click resets the timer |
| App.MinimizedEvent | demoui.py:612-628 | returns to the main menu exactly on a click, D-pad Up or Escape, stopping the music if it plays and going full screen; any other input has no effect beyond resetting the timer; every device input resets the timer; nothing else changes |
| App.ShowBg2Event | demoui.py:630-640 | returns to the main menu, resetting the timer, exactly on A, Escape or a click; otherwise nothing changes |
| App.StartSlideshow | demoui.py:130-141 | exactly when an executable was found and the deck file exists, the deck is opened and then the controller script is started, and the slideshow flag is set; otherwise nothing happens |
| App.Confirm | demoui.py:328-338 | page turns update the picker, Home goes to the main menu, a launch outside `-n..n-1` raises, and a launch inside the catalog starts that deck's slideshow |
| App.Classify | demoui.py:652-691 | the picker's bindings, each in both directions: exactly Escape, B or the Home click mean back; exactly Right or D-pad right mean a move right, and likewise left, down and up; exactly Enter or A confirm; exactly the Prev or Next click turns the page |
| App.PickerInput | demoui.py:651-691 | one input outside a slideshow does what its binding says: back to the main menu with nothing else changed, one picker move, or the confirm rule; an input with no binding changes nothing; keeps the invariant and, with a non-empty catalog, never raises |
| App.PickerEvent | demoui.py:642-691 | during a slideshow only the poll runs; otherwise Escape, B and the Home click go to the main menu, arrows and D-pad move, Enter and A confirm, Prev and Next clicks turn the page, and an input with no binding changes nothing; keeps the invariant and, with a non-empty catalog, never raises |
| App.HandleEvent | demoui.py:551-691 | crashed stays crashed; Quit only stops; keeps the invariant and the catalog; never enters or leaves loading; never writes the cache; does not raise after loading with a non-empty catalog |
| App.ModeEvent | demoui.py:556-691 | the current mode's handler keeps the invariant and the catalog, never enters or leaves loading, never writes the cache, and does not raise after loading with a non-empty catalog |
| App.HandleAll | demoui.py:552-691 | a crashed kiosk or an empty batch changes nothing; a Quit anywhere in the batch leaves the kiosk stopped or crashed; once stopped it never runs again |
| App.Frame | demoui.py:434-691 | a kiosk that is no longer running stays as it is; a Quit among the frame's events ends the main loop after the frame |
| App.FrameHandlesEvents | demoui.py:433-553 | outside loading, when the tick does nothing, a frame runs the event loop over the events posted in the previous frame followed by the new ones |
| App.LoadingFramesRunPass | demoui.py:435-503 | with one frame per remaining deck, no Quit and the same disk, the frames leave the kiosk loading and running with exactly the loader state of `Loader.RunPass` |
| App.LastLoadingFrameSaves | demoui.py:504-515 | the frame after the last deck, without Quit, writes the cache and opens the main menu, still running |
| App.Initial | demoui.py:71-88 | the start-up state: in the loading screen with loading not begun, button 1 selected, no music, no slideshow, the picker at page 0 tile 0, nothing posted, the timer at the start clock; it satisfies the invariant |
| App.HandleAllKeeps | demoui.py:551-691 | a whole event batch keeps the invariant and the catalog, never writes the cache, and does not raise after loading with a non-empty catalog |
| App.TickSaves | demoui.py:504-515 | a tick writes the cache exactly when it moves from the loading screen to another mode |
| App.FrameKeeps | demoui.py:433-691 | a frame keeps the invariant, never re-enters loading, writes the cache exactly when it leaves loading, and does not raise after loading with a non-empty catalog |
| App.FrameKeepsCatalog | demoui.py:436-453 | once loading is over, frames never change the catalog |
| App.RunKeeps | demoui.py:433-691 | over any run of frames: the invariant holds, the cache is written once if the run leaves loading and never otherwise, and nothing raises after loading with a non-empty catalog |
| App.CacheSavedAtMostOnce | demoui.py:504-509 | from start-up, the cache file is written at most once |
| App.EmptyCatalogConfirmRaises | demoui.py:336-338 | with an empty catalog, A on the grid raises IndexError |
| App.SlideshowIgnoresInput | demoui.py:644-649 | during a slideshow any picker input only updates the slideshow flag from the process poll |
| App.SlideshowEndsOnce | demoui.py:533-537 | when PowerPoint is gone, the tick clears the flag with exactly one window raise, and the next tick does nothing |
| App.AttentionVideoDrainsQueue | demoui.py:539-546 | when the attention video plays, it takes the queued events with it: the frame leaves the main menu as it was, with the timer at the post-video clock and nothing posted |
| App.ClickAfterAttentionVideo | demoui.py:539-546 | a click handled after the attention video restarts the timer from the post-video clock |
| App.FeatureVideoDrainsQueue | demoui.py:565-582 | the A press that Enter posts is lost when a later event of the same batch plays the feature video |
| App.EventsAfterFeatureVideo | demoui.py:580-610 | an event handled after the feature video in the same batch restarts the timer from the post-video clock |
| Controller.IsPptRunning | ppt_controller.py:8-12 | true exactly when some process has a present, non-empty name whose lower-case form contains "powerpnt" |
| Controller.UnguardedPollAgrees | demoui.py:144-145 | the kiosk's poll, which has no emptiness guard, agrees with the script's poll |
| Controller.Action | ppt_controller.py:20-38 | only a "Key" press with state 1 (A, B or X) or an "Absolute" `ABS_HAT0Y` with state ±1 acts; B sends "esc", kills PowerPoint exactly when it still runs, then exits with code 0; every other event sends at most one key |
| Controller.KeyTable | ppt_controller.py:20-38 | A and X both send "pagedown"; hat -1 sends "pageup", +1 "pagedown", 0 nothing; B without state 1 does nothing |
| Controller.RunBatch | ppt_controller.py:19-38 | a batch ends the script exactly when it holds a B press, with `Exit(0)` as the last effect; otherwise it only sends keys |
| Controller.BatchActsInOrder | ppt_controller.py:19-38 | a batch's effects are exactly the effects of each event in order, up to and including the first B press, and nothing after it |
| Controller.Turn | ppt_controller.py:17-44 | a turn ends the script exactly when its read holds a B press, and then `Exit(0)` is its last effect |
| Controller.Loop | ppt_controller.py:16-45 | every completed turn saw PowerPoint running and no B press; the loop ends at the first turn where PowerPoint is gone or B is pressed (then with exit code 0), or runs through all polls |
| Controller.LoopEffects | ppt_controller.py:16-45 | the loop's effects are exactly those of its completed turns, in order, each followed by the 100 ms pause, and then those of the turn that pressed B, if one did |
| Controller.ErrorsKeepPolling | ppt_controller.py:39-44 | read errors never end the loop while PowerPoint runs |

## Left out

- Rendering is not modelled: `draw_toolbar`, `draw_ppt_menu`, the loading text and
  the button drawing. Button geometry and mouse hit-testing are not modelled either.
  A click arrives as `MouseDown(k)`, where `k` is the 1-based button under the
  mouse cursor (main-menu button or toolbar button), or 0 for none.
- Video and audio playback are blocking I/O. The model records them as a
  `PlayVideo` effect that plays and then returns. The clock reading after the
  playback is an input, `Env.afterVideo`. That a video ends early on a button, key
  or click is left to that input. The temp-file cache of extracted audio is not
  modelled.
- Window management is foreign calls and is recorded as effects only: minimize,
  full screen, bring to front. `open_explorer_folder` is never called.
- Launching PowerPoint and the controller script with `subprocess.Popen` is
  recorded as effects. So is `taskkill` in the controller.
- MD5 hashing and the COM slide export are oracles: `Disk.md5` and
  `Disk.exportOk`. These failures would raise and are not modelled: starting or
  quitting the COM application, reading a deck for hashing, and loading a cached
  image on a hit.
- JSON load and save of the cache become reading a `CacheFile` value and emitting
  a `SaveCache` effect. A failing write is not modelled.
- PowerPoint executable probing becomes the boolean input `Env.pptPathFound`.
  Process enumeration in the kiosk becomes `Env.pptRunning`.
- The loading percentage `int((i/total)*100)` uses float division. The model
  reports the processed count and the total instead.
- Time is an integer clock in the same units as `INACTIVITY_TIMEOUT` (seconds).
  Sub-second resolution of `time.time()` is not modelled.
- App.Frame: one `Env` serves a whole frame. The kiosk polls PowerPoint again for
  every event, so a slideshow started and polled within one frame sees a single
  process reading.
- App.HandleAll: when two videos play in one frame, the events after the second
  one see the same post-video clock as after the first.
- App.Frame: a loading frame reads the queue twice. The loading screen drains it
  first. After that, the main loop's own read handles Quit, and after the last deck
  it handles main-menu input. The model gives all of a loading frame's events to
  the first read. Events that arrive later go to the next frame, so this frame's
  main-loop read is not modelled.
- Controller.IsPptRunning: lower-casing is modelled for ASCII letters only. Python's
  `str.lower` also folds other Unicode letters.
- Text.Lower: lower-cases ASCII letters only, for the same reason.
- Controller.Loop: `UnpluggedError` and other read exceptions are both modelled as
  a one-second pause. An exception raised by a key press partway through a batch is
  not modelled. Console messages are dropped.
- `pygame.display.flip`, `clock.tick(FPS)` and `pygame.quit` are not modelled.
- Exceptions from the media and process libraries are not modelled: the model
  assumes these calls return normally. `VideoFileClip` raises when `vid1` or `vid2`
  is missing (demoui.py:204, 237). `clip.audio.write_audiofile` raises for a clip
  without audio (demoui.py:199). `subprocess.Popen` raises when a launch fails
  (demoui.py:134, 139). The no-crash results are therefore stated only for the
  kiosk's own logic.

=== FILE: app.dfy ===
/** The kiosk's application mode machine: loading, main menu, minimized bar,
    full-screen overlay (the "bg2" screen) and the deck picker, driven frame by frame.

    Every frame first does the current mode's own work (one loading tick, or the
    slideshow poll in the picker), then applies the inactivity rule, then handles the
    frame's input events one by one. Clocks, the process table, the file system and
    the presentation engine are read from an `Env`; drawing, window handling, audio
    and video playback are recorded as `Effect`s instead of being performed. */
module App {
  import opened Wrappers
  import P = Picker
  import L = Loader

  /** Seconds of no recognized input after which the attention video plays */
  const InactivityTimeout: int := 5
  const BgmPath: string := "bgm.mp3"

  datatype Mode = Loading | MainMenu | Minimized | ShowBg2 | PptMenu

  /** `running` is True (Running) or was cleared by a quit request (Stopped: the frame
      still finishes, then the loop ends); Crashed is an uncaught exception. */
  datatype Status = Running | Stopped | Crashed

  datatype Key = Escape | LeftArrow | RightArrow | UpArrow | DownArrow | Enter | OtherKey

  /** The pygame events the kiosk distinguishes. `MouseDown(hit)` carries the
      1-based number of the on-screen button under the mouse cursor, 0 for none: one of
      the four main-menu buttons, or one of the three toolbar buttons in the picker. */
  datatype Event =
    | Quit
    | KeyDown(key: Key)
    | HatMotion(x: int, y: int)
    | JoyButton(button: int)
    | AxisMotion
    | MouseDown(hit: int)
    | OtherEvent

  datatype Video = AttentionVideo | FeatureVideo

  datatype Effect =
    | LoadingScreen(done: nat, total: nat)
    | ExportThumbnail(deck: string)
    | SaveCache(entries: map<string, string>)
    | PlayVideo(video: Video)
    | StartMusic
    | StopMusic
    | MinimizeWindow
    | FullscreenWindow
    | OpenSlideshow(deck: string)
    | StartControllerScript
    | BringToFront

  datatype Ctx = Ctx(
    mode: Mode,
    status: Status,
    selected: int,            // selected_button
    lastActivity: int,        // last_activity_time
    bgmPlaying: bool,
    inSlideshow: bool,
    picker: P.Picker,
    loaderStarted: bool,
    loader: L.State,
    posted: seq<Event>)       // events posted with pygame.event.post, seen next frame

  /** `now` is the clock when the call starts; `afterVideo` the clock once a blocking
      video started in the call has returned; `pptRunning` is the process-name poll;
      `pptPathFound` whether a PowerPoint executable was found at start-up. */
  datatype Env = Env(now: int, afterVideo: int, pptRunning: bool, pptPathFound: bool, disk: L.Disk)

  datatype Step = Step(ctx: Ctx, effects: seq<Effect>)

  /** The start-up state: loading not yet begun, button 1 selected, no music,
      no slideshow, picker at page 0, the timer started at `start` */
  function Initial(start: int): (r: Ctx)
    ensures Inv(r) && r.mode == Loading && r.status == Running && !r.loaderStarted
    ensures r.selected == 1 && r.lastActivity == start && !r.bgmPlaying && !r.inSlideshow
    ensures r.picker == P.Picker(0, 0, P.GridFocus) && r.posted == []
  {
    Ctx(Loading, Running, 1, start, false, false, P.Picker(0, 0, 0), false,
        L.State([], 0, map[], map[]), [])
  }

  predicate NoSave(effects: seq<Effect>) {
    forall i :: 0 <= i < |effects| ==> !effects[i].SaveCache?
  }

  function CatalogSize(c: Ctx): nat {
    |c.loader.files|
  }

  /** What holds in every state the kiosk reaches. */
  predicate Inv(c: Ctx) {
    && 1 <= c.selected <= 4
    && (c.bgmPlaying ==> c.mode == Minimized)
    && (c.inSlideshow ==> c.mode == PptMenu)
    && (c.loaderStarted ==> c.loader.index <= |c.loader.files|)
    && (c.mode != Loading ==> c.loaderStarted && c.loader.index == |c.loader.files|)
    && (c.mode != Loading ==> P.Consistent(c.picker, CatalogSize(c)))
  }

  // ---------------------------------------------------------------- music

  /** `play_bgm`: start the looping music if its file exists and it is not playing */
  function PlayBgm(c: Ctx, env: Env): (r: Step)
    ensures r.ctx == c.(bgmPlaying := c.bgmPlaying || env.disk.fileExists(BgmPath))
    ensures r.effects == (if env.disk.fileExists(BgmPath) && !c.bgmPlaying then [StartMusic] else [])
  {
    if env.disk.fileExists(BgmPath) && !c.bgmPlaying then Step(c.(bgmPlaying := true), [StartMusic])
    else Step(c, [])
  }

  /** `stop_bgm`: stop the music if it is playing */
  function StopBgm(c: Ctx): (r: Step)
    ensures r.ctx == c.(bgmPlaying := false)
    ensures r.effects == (if c.bgmPlaying then [StopMusic] else [])
  {
    if c.bgmPlaying then Step(c.(bgmPlaying := false), [StopMusic]) else Step(c, [])
  }

  /** Starting or stopping the music twice is the same as once, and the second call
      has no effect. */
  lemma MusicIdempotent(c: Ctx, env: Env)
    ensures PlayBgm(PlayBgm(c, env).ctx, env).ctx == PlayBgm(c, env).ctx
    ensures PlayBgm(PlayBgm(c, env).ctx, env).effects == []
    ensures StopBgm(StopBgm(c).ctx).ctx == StopBgm(c).ctx
    ensures StopBgm(StopBgm(c).ctx).effects == []
  {
  }

  /** Leave the minimized bar: stop the music, go full screen, show the main menu. */
  function Restore(c: Ctx): (r: Step)
    ensures r.ctx == c.(bgmPlaying := false, mode := MainMenu)
    ensures r.effects == (if c.bgmPlaying then [StopMusic] else []) + [FullscreenWindow]
  {
    var s := StopBgm(c);
    Step(s.ctx.(mode := MainMenu), s.effects + [FullscreenWindow])
  }

  /** What leaving the bar for the attention video does first: from the minimized
      bar, stop music that plays and go full screen; from the main menu, nothing */
  function RestoreEffects(c: Ctx): seq<Effect> {
    if c.mode == Minimized then (if c.bgmPlaying then [StopMusic] else []) + [FullscreenWindow] else []
  }

  // ---------------------------------------------------------------- per-frame work

  /** The loading screen: the first frame reads the cache and builds the catalog; each
      later frame processes one deck; the frame after the last deck saves the cache
      and resets the picker before switching to the main menu. */
  function LoadingWork(c: Ctx, env: Env): (r: Step)
    requires c.mode == Loading
    ensures r.ctx.mode == Loading || r.ctx.mode == MainMenu
    ensures (exists m :: SaveCache(m) in r.effects) <==> r.ctx.mode == MainMenu
    ensures r.ctx.mode == MainMenu ==>
      && c.loaderStarted && c.loader.index >= |c.loader.files|
      && r.ctx.picker == P.Picker(0, 0, 0) && !r.ctx.inSlideshow
      && r.effects == [SaveCache(c.loader.cache)]
    ensures r.ctx.status == Crashed <==>
      c.status == Crashed || (!c.loaderStarted && env.disk.cacheFile.UnreadableCacheFile?)
    ensures !c.loaderStarted && r.ctx.status != Crashed ==>
      r.ctx.loaderStarted && L.Begin(env.disk).Some? && r.ctx.loader == L.Begin(env.disk).value
    ensures c.loaderStarted && c.loader.index < |c.loader.files| ==>
      r.ctx.loader == L.ProcessNext(c.loader, env.disk).state
      && r.ctx.loader.index == c.loader.index + 1 && r.ctx.loader.files == c.loader.files
    ensures c.loaderStarted ==> r.ctx.loaderStarted
    ensures c.loaderStarted && c.loader.index >= |c.loader.files| ==> r.ctx.mode == MainMenu
    ensures r.ctx.status == c.status || r.ctx.status == Crashed
    ensures && r.ctx.lastActivity == c.lastActivity && r.ctx.selected == c.selected
            && r.ctx.bgmPlaying == c.bgmPlaying && r.ctx.posted == c.posted
    ensures r.ctx.mode == Loading ==> NoSave(r.effects)
    ensures Inv(c) ==> Inv(r.ctx)
  {
    if !c.loaderStarted then
      match L.Begin(env.disk)
      case None => Step(c.(status := Crashed), [])
      case Some(l) => Step(c.(loaderStarted := true, loader := l), [LoadingScreen(0, |l.files|)])
    else if c.loader.index < |c.loader.files| then
      var pr := L.ProcessNext(c.loader, env.disk);
      var deck := c.loader.files[c.loader.index];
      Step(c.(loader := pr.state),
           (if pr.engineUsed then [ExportThumbnail(deck)] else [])
           + [LoadingScreen(pr.state.index, |pr.state.files|)])
    else
      Step(c.(picker := P.Picker(0, 0, 0), inSlideshow := false, mode := MainMenu),
           [SaveCache(c.loader.cache)])
  }

  /** While a slideshow runs, the picker watches for PowerPoint to go away. */
  function PollSlideshow(c: Ctx, env: Env): (r: Step)
    ensures r.ctx == c.(inSlideshow := c.inSlideshow && env.pptRunning)
    ensures r.effects == (if c.inSlideshow && !env.pptRunning then [BringToFront] else [])
  {
    if c.inSlideshow && !env.pptRunning then Step(c.(inSlideshow := false), [BringToFront])
    else Step(c, [])
  }

  /** The inactivity rule, evaluated only in the main menu and the minimized bar */
  function Inactivity(c: Ctx, env: Env): (r: Step)
    ensures var fires := (c.mode == MainMenu || c.mode == Minimized)
                         && env.now - c.lastActivity > InactivityTimeout;
      && (!fires ==> r == Step(c, []))
      && (fires ==> r.ctx == c.(mode := MainMenu, lastActivity := env.afterVideo,
                                bgmPlaying := c.bgmPlaying && c.mode == MainMenu))
      && (fires ==> |r.effects| > 0 && r.effects[|r.effects| - 1] == PlayVideo(AttentionVideo))
      && (fires ==>
            r.effects == RestoreEffects(c) + [PlayVideo(AttentionVideo)])
    ensures NoSave(r.effects)
  {
    if (c.mode == MainMenu || c.mode == Minimized) && env.now - c.lastActivity > InactivityTimeout then
      var s := if c.mode == Minimized then Restore(c) else Step(c, []);
      Step(s.ctx.(lastActivity := env.afterVideo), s.effects + [PlayVideo(AttentionVideo)])
    else Step(c, [])
  }

  function ModeWork(c: Ctx, env: Env): Step {
    match c.mode
    case Loading => LoadingWork(c, env)
    case PptMenu => PollSlideshow(c, env)
    case _ => Step(c, [])
  }

  /** The part of a frame before the event loop */
  function Tick(c: Ctx, env: Env): (r: Step)
    ensures Inv(c) ==> Inv(r.ctx)
    ensures r.ctx.mode == Loading ==> c.mode == Loading
    ensures (exists m :: SaveCache(m) in r.effects) ==> c.mode == Loading && r.ctx.mode == MainMenu
    ensures c.mode != Loading && c.status != Crashed ==> r.ctx.status == c.status
    ensures r.ctx.status == c.status || r.ctx.status == Crashed
    ensures r.ctx.posted == c.posted
    ensures c.mode == Loading && !c.loaderStarted && !env.disk.cacheFile.UnreadableCacheFile? ==>
      r.ctx.loader == L.Begin(env.disk).value
    ensures c.mode == Loading && c.loaderStarted && c.loader.index < |c.loader.files| ==>
      && r.ctx.mode == Loading && r.ctx.status == c.status && r.ctx.loaderStarted
      && r.ctx.loader == L.ProcessNext(c.loader, env.disk).state
    ensures c.mode == Loading && c.loaderStarted && c.loader.index >= |c.loader.files| ==>
      r.ctx.mode == MainMenu && SaveCache(c.loader.cache) in r.effects
  {
    var w := ModeWork(c, env);
    if w.ctx.status == Crashed then w
    else
      var i := Inactivity(w.ctx, env);
      Step(i.ctx, w.effects + i.effects)
  }

  // ---------------------------------------------------------------- main menu

  /** Activating main-menu button `k` (A button or a click on it) */
  function Activate(c: Ctx, k: int, env: Env): (r: Step)
    requires c.mode == MainMenu
    ensures k == 1 ==>
      && r.ctx == c.(mode := Minimized, bgmPlaying := c.bgmPlaying || env.disk.fileExists(BgmPath))
      && r.effects == [MinimizeWindow] + (if env.disk.fileExists(BgmPath) && !c.bgmPlaying then [StartMusic] else [])
    ensures k == 2 ==> r == Step(c, [PlayVideo(FeatureVideo)])
    ensures k == 3 ==> r == Step(c.(mode := ShowBg2), [])
    ensures k == 4 ==> r == Step(c.(mode := PptMenu,
      picker := P.Picker(c.picker.page, P.PageStart(c.picker.page), P.GridFocus)), [])
    ensures !(1 <= k <= 4) ==> r == Step(c, [])
  {
    if k == 1 then
      var b := PlayBgm(c, env);
      Step(b.ctx.(mode := Minimized), [MinimizeWindow] + b.effects)
    else if k == 2 then Step(c, [PlayVideo(FeatureVideo)])
    else if k == 3 then Step(c.(mode := ShowBg2), [])
    else if k == 4 then
      Step(c.(picker := c.picker.(index := P.PageStart(c.picker.page), toolbar := P.GridFocus),
              mode := PptMenu), [])
    else Step(c, [])
  }

  /** The clock the timer is reset to after activating button `k`: the feature
      video blocks until it ends or is interrupted. */
  function ResetClock(k: int, env: Env): int {
    if k == 2 then env.afterVideo else env.now
  }

  /** Activate button `k` and restart the inactivity timer */
  function ActivateAndReset(c: Ctx, k: int, env: Env): (r: Step)
    requires c.mode == MainMenu
    ensures r.ctx == Activate(c, k, env).ctx.(lastActivity := ResetClock(k, env))
    ensures r.effects == Activate(c, k, env).effects
    ensures r.ctx.selected == c.selected && r.ctx.status == c.status
    ensures r.ctx.lastActivity == ResetClock(k, env)
    ensures r.ctx.loader == c.loader
    ensures Inv(c) ==> Inv(r.ctx)
    ensures NoSave(r.effects) && r.ctx.mode != Loading
  {
    var s := Activate(c, k, env);
    Step(s.ctx.(lastActivity := ResetClock(k, env)), s.effects)
  }

  /** A key in the main menu: Escape quits, the arrows move the selection within
      1..4, Enter posts an A press for the next frame. */
  function MenuKey(c: Ctx, k: Key): (r: Ctx)
    ensures r == c.(selected := r.selected, status := r.status, posted := r.posted)
    ensures 1 <= c.selected <= 4 ==> 1 <= r.selected <= 4
    ensures r.status == (if k == Escape then Stopped else c.status)
    ensures k == RightArrow ==> r.selected == P.Min(4, c.selected + 1)
    ensures k == LeftArrow ==> r.selected == P.Max(1, c.selected - 1)
    ensures k != RightArrow && k != LeftArrow ==> r.selected == c.selected
    ensures r.posted == c.posted + (if k == Enter then [JoyButton(0)] else [])
  {
    if k == Escape then c.(status := Stopped)
    else if k == RightArrow then c.(selected := P.Min(4, c.selected + 1))
    else if k == LeftArrow then c.(selected := P.Max(1, c.selected - 1))
    else if k == Enter then c.(posted := c.posted + [JoyButton(0)])
    else c
  }

  function MainMenuEvent(c: Ctx, e: Event, env: Env): (r: Step)
    requires c.mode == MainMenu
    ensures 1 <= c.selected <= 4 ==> 1 <= r.ctx.selected <= 4
    ensures r.ctx.lastActivity != c.lastActivity ==> e.MouseDown? || e == JoyButton(0)
    ensures Inv(c) ==> Inv(r.ctx)
    ensures c.status != Crashed ==> r.ctx.status != Crashed
    ensures NoSave(r.effects) && r.ctx.mode != Loading
    ensures r.ctx.loader == c.loader
    ensures r.ctx.status == c.status || r.ctx.status == Stopped
    ensures e.KeyDown? ==> r == Step(MenuKey(c, e.key), [])
    ensures e == JoyButton(0) ==> r == ActivateAndReset(c, c.selected, env)
    ensures e.MouseDown? && 1 <= e.hit <= 4 ==> r == ActivateAndReset(c.(selected := e.hit), e.hit, env)
    ensures e.MouseDown? && !(1 <= e.hit <= 4) ==> r == Step(c.(lastActivity := env.now), [])
    ensures e == HatMotion(-1, 0) ==> r == Step(c.(selected := P.Max(1, c.selected - 1)), [])
    ensures e == HatMotion(1, 0) ==> r == Step(c.(selected := P.Min(4, c.selected + 1)), [])
    ensures (&& !e.KeyDown? && !e.MouseDown? && e != JoyButton(0)
             && e != HatMotion(-1, 0) && e != HatMotion(1, 0)) ==> r == Step(c, [])
  {
    match e
    case KeyDown(k) => Step(MenuKey(c, k), [])
    case HatMotion(x, y) =>
      if (x, y) == (-1, 0) then Step(c.(selected := P.Max(1, c.selected - 1)), [])
      else if (x, y) == (1, 0) then Step(c.(selected := P.Min(4, c.selected + 1)), [])
      else Step(c, [])
    case JoyButton(b) =>
      if b == 0 then
        ActivateAndReset(c, c.selected, env)
      else Step(c, [])
    case MouseDown(hit) =>
      if 1 <= hit <= 4 then
        ActivateAndReset(c.(selected := hit), hit, env)
      else Step(c.(lastActivity := env.now), [])
    case _ => Step(c, [])
  }

  // ---------------------------------------------------------------- other modes

  /** The minimized bar: any device input resets the timer; only a click, D-pad Up
      or Escape brings the main menu back. */
  function MinimizedEvent(c: Ctx, e: Event, env: Env): (r: Step)
    requires c.mode == Minimized
    ensures r.ctx.mode == MainMenu <==> e.MouseDown? || e == HatMotion(0, 1) || e == KeyDown(Escape)
    ensures r.ctx.mode != MainMenu ==> r.ctx.bgmPlaying == c.bgmPlaying
    ensures r.ctx.mode == MainMenu ==> !r.ctx.bgmPlaying
    ensures r.ctx.lastActivity == (if IsDeviceInput(e) then env.now else c.lastActivity)
    ensures r.ctx == c.(mode := r.ctx.mode, bgmPlaying := r.ctx.bgmPlaying, lastActivity := r.ctx.lastActivity)
    ensures r.ctx.mode == MainMenu ==> r.effects == RestoreEffects(c)
    ensures r.ctx.mode != MainMenu ==> r.effects == []
    ensures NoSave(r.effects)
  {
    if IsDeviceInput(e) then
      var c1 := c.(lastActivity := env.now);
      if e.MouseDown? || e == HatMotion(0, 1) || e == KeyDown(Escape) then Restore(c1)
      else Step(c1, [])
    else Step(c, [])
  }

  predicate IsDeviceInput(e: Event) {
    e.MouseDown? || e.KeyDown? || e.JoyButton? || e.HatMotion? || e.AxisMotion?
  }

  /** The overlay waits for A, Escape or a click. */
  function ShowBg2Event(c: Ctx, e: Event, env: Env): (r: Step)
    requires c.mode == ShowBg2
    ensures r.effects == []
    ensures r.ctx.mode == MainMenu <==> e == JoyButton(0) || e == KeyDown(Escape) || e.MouseDown?
    ensures r.ctx.mode == MainMenu ==> r.ctx == c.(mode := MainMenu, lastActivity := env.now)
    ensures r.ctx.mode != MainMenu ==> r.ctx == c
  {
    if e == JoyButton(0) || e == KeyDown(Escape) || e.MouseDown? then
      Step(c.(mode := MainMenu, lastActivity := env.now), [])
    else Step(c, [])
  }

  // ---------------------------------------------------------------- picker

  /** `start_ppt_slideshow`: only with a PowerPoint executable and an existing file */
  function StartSlideshow(c: Ctx, deck: string, env: Env): (r: Step)
    ensures r.ctx.inSlideshow <==> c.inSlideshow || (env.pptPathFound && env.disk.fileExists(deck))
    ensures r.ctx == c.(inSlideshow := r.ctx.inSlideshow)
    ensures r.effects ==
      (if env.pptPathFound && env.disk.fileExists(deck) then [OpenSlideshow(deck), StartControllerScript] else [])
  {
    if env.pptPathFound && env.disk.fileExists(deck) then
      Step(c.(inSlideshow := true), [OpenSlideshow(deck), StartControllerScript])
    else Step(c, [])
  }

  /** `select_current_item`: indexing the catalog past its end raises IndexError */
  function Confirm(c: Ctx, env: Env): (r: Step)
    ensures match P.Select(c.picker, CatalogSize(c))
      case Turn(q) => r == Step(c.(picker := q), [])
      case GoHome => r == Step(c.(mode := MainMenu), [])
      case Launch(i) =>
        && r.ctx.status == (if -(CatalogSize(c) as int) <= i < CatalogSize(c) then c.status else Crashed)
        && (0 <= i < CatalogSize(c) ==> r == StartSlideshow(c, c.loader.files[i], env))
  {
    match P.Select(c.picker, CatalogSize(c))
    case Turn(q) => Step(c.(picker := q), [])
    case GoHome => Step(c.(mode := MainMenu), [])
    case Launch(i) =>
      match PyIndex(c.loader.files, i)
      case None => Step(c.(status := Crashed), [])
      case Some(deck) => StartSlideshow(c, deck, env)
  }

  function Navigate(c: Ctx, nav: P.Nav): (r: Ctx)
    ensures r == c.(picker := r.picker)
    ensures c.mode != Loading && Inv(c) ==> Inv(r)
  {
    c.(picker := P.Apply(c.picker, nav, CatalogSize(c)))
  }

  /** What an input asks of the picker: back to the main menu, a move, a confirm, or
      nothing */
  datatype PickerAction = Back | Go(nav: P.Nav) | Choose | Ignore

  /** The picker's bindings: keyboard, D-pad, A/B buttons and the toolbar clicks */
  function Classify(e: Event): (a: PickerAction)
    ensures a == Back <==> e == KeyDown(Escape) || e == JoyButton(1) || e == MouseDown(2)
    ensures a == Go(P.Right) <==> e == KeyDown(RightArrow) || e == HatMotion(1, 0)
    ensures a == Go(P.Left) <==> e == KeyDown(LeftArrow) || e == HatMotion(-1, 0)
    ensures a == Go(P.Down) <==> e == KeyDown(DownArrow) || e == HatMotion(0, -1)
    ensures a == Go(P.Up) <==> e == KeyDown(UpArrow) || e == HatMotion(0, 1)
    ensures a == Choose <==> e == KeyDown(Enter) || e == JoyButton(0)
    ensures a == Go(P.ClickPrev) <==> e == MouseDown(1)
    ensures a == Go(P.ClickNext) <==> e == MouseDown(3)
    ensures a.Go? ==> a.nav != P.Confirm
  {
    match e
    case KeyDown(k) =>
      if k == Escape then Back
      else if k == RightArrow then Go(P.Right)
      else if k == LeftArrow then Go(P.Left)
      else if k == DownArrow then Go(P.Down)
      else if k == UpArrow then Go(P.Up)
      else if k == Enter then Choose
      else Ignore
    case HatMotion(x, y) =>
      if (x, y) == (-1, 0) then Go(P.Left)
      else if (x, y) == (1, 0) then Go(P.Right)
      else if (x, y) == (0, -1) then Go(P.Down)
      else if (x, y) == (0, 1) then Go(P.Up)
      else Ignore
    case JoyButton(b) =>
      if b == 0 then Choose
      else if b == 1 then Back
      else Ignore
    case MouseDown(hit) =>
      if hit == 1 then Go(P.ClickPrev)
      else if hit == 2 then Back
      else if hit == 3 then Go(P.ClickNext)
      else Ignore
    case _ => Ignore
  }

  /** One input on the picker while no slideshow runs */
  function PickerInput(c: Ctx, e: Event, env: Env): (r: Step)
    requires c.mode == PptMenu && !c.inSlideshow
    ensures Inv(c) ==> Inv(r.ctx)
    ensures Inv(c) && CatalogSize(c) > 0 && c.status != Crashed ==> r.ctx.status != Crashed
    ensures NoSave(r.effects) && r.ctx.mode != Loading
    ensures r.ctx.loader == c.loader
    ensures r.ctx.status == c.status || r.ctx.status == Crashed
    ensures e == KeyDown(Escape) || e == JoyButton(1) || e == MouseDown(2) ==>
      r == Step(c.(mode := MainMenu), [])
    ensures e == KeyDown(RightArrow) || e == HatMotion(1, 0) ==> r == Step(Navigate(c, P.Right), [])
    ensures e == KeyDown(LeftArrow) || e == HatMotion(-1, 0) ==> r == Step(Navigate(c, P.Left), [])
    ensures e == KeyDown(DownArrow) || e == HatMotion(0, -1) ==> r == Step(Navigate(c, P.Down), [])
    ensures e == KeyDown(UpArrow) || e == HatMotion(0, 1) ==> r == Step(Navigate(c, P.Up), [])
    ensures e == KeyDown(Enter) || e == JoyButton(0) ==> r == Confirm(c, env)
    ensures e == MouseDown(1) ==> r == Step(Navigate(c, P.ClickPrev), [])
    ensures e == MouseDown(3) ==> r == Step(Navigate(c, P.ClickNext), [])
    ensures Classify(e) == Ignore ==> r == Step(c, [])
  {
    match Classify(e)
    case Back => Step(c.(mode := MainMenu), [])
    case Go(nav) => Step(Navigate(c, nav), [])
    case Choose => Confirm(c, env)
    case Ignore => Step(c, [])
  }

  /** The picker: while a slideshow runs it only polls for PowerPoint; otherwise it
      handles one input. */
  function PickerEvent(c: Ctx, e: Event, env: Env): (r: Step)
    requires c.mode == PptMenu
    ensures c.inSlideshow ==> r == PollSlideshow(c, env)
    ensures Inv(c) ==> Inv(r.ctx)
    ensures Inv(c) && CatalogSize(c) > 0 && c.status != Crashed ==> r.ctx.status != Crashed
    ensures NoSave(r.effects) && r.ctx.mode != Loading
    ensures r.ctx.loader == c.loader
    ensures r.ctx.status == c.status || r.ctx.status == Crashed
    ensures !c.inSlideshow ==>
      && (e == KeyDown(Escape) || e == JoyButton(1) || e == MouseDown(2) ==>
            r == Step(c.(mode := MainMenu), []))
      && (e == KeyDown(RightArrow) || e == HatMotion(1, 0) ==> r == Step(Navigate(c, P.Right), []))
      && (e == KeyDown(LeftArrow) || e == HatMotion(-1, 0) ==> r == Step(Navigate(c, P.Left), []))
      && (e == KeyDown(DownArrow) || e == HatMotion(0, -1) ==> r == Step(Navigate(c, P.Down), []))
      && (e == KeyDown(UpArrow) || e == HatMotion(0, 1) ==> r == Step(Navigate(c, P.Up), []))
      && (e == KeyDown(Enter) || e == JoyButton(0) ==> r == Confirm(c, env))
      && (e == MouseDown(1) ==> r == Step(Navigate(c, P.ClickPrev), []))
      && (e == MouseDown(3) ==> r == Step(Navigate(c, P.ClickNext), []))
      && (Classify(e) == Ignore ==> r == Step(c, []))
  {
    if c.inSlideshow then PollSlideshow(c, env) else PickerInput(c, e, env)
  }

  // ---------------------------------------------------------------- dispatch

  /** One iteration of the event loop */
  function HandleEvent(c: Ctx, e: Event, env: Env): (r: Step)
    ensures c.status == Crashed ==> r == Step(c, [])
    ensures e == Quit && c.status != Crashed ==> r == Step(c.(status := Stopped), [])
    ensures Inv(c) ==> Inv(r.ctx)
    ensures Inv(c) && c.mode != Loading && CatalogSize(c) > 0 && c.status != Crashed ==>
      r.ctx.status != Crashed
    ensures r.ctx.mode == Loading <==> c.mode == Loading
    ensures r.ctx.loader == c.loader
    ensures NoSave(r.effects)
    ensures c.status != Running ==> r.ctx.status != Running
  {
    if c.status == Crashed then Step(c, [])
    else if e == Quit then Step(c.(status := Stopped), [])
    else ModeEvent(c, e, env)
  }

  /** The handler of the current mode; the loading screen ignores events. */
  function ModeEvent(c: Ctx, e: Event, env: Env): (r: Step)
    ensures Inv(c) ==> Inv(r.ctx)
    ensures Inv(c) && c.mode != Loading && CatalogSize(c) > 0 && c.status != Crashed ==>
      r.ctx.status != Crashed
    ensures r.ctx.mode == Loading <==> c.mode == Loading
    ensures r.ctx.loader == c.loader
    ensures NoSave(r.effects)
    ensures c.status != Running ==> r.ctx.status != Running
  {
    match c.mode
    case Loading => Step(c, [])
    case MainMenu => MainMenuEvent(c, e, env)
    case Minimized => MinimizedEvent(c, e, env)
    case ShowBg2 => ShowBg2Event(c, e, env)
    case PptMenu => PickerEvent(c, e, env)
  }

  /** Whether a blocking video played */
  predicate PlayedVideo(effects: seq<Effect>) {
    PlayVideo(AttentionVideo) in effects || PlayVideo(FeatureVideo) in effects
  }

  /** The environment once a blocking video has returned: the clock has moved on */
  function AfterVideo(env: Env): Env {
    env.(now := env.afterVideo)
  }

  /** The event loop over one frame's batch; an exception ends it. A video played
      by an event polls the queue while it runs, so the events posted before it are
      gone, and the later events of the batch see the clock after the video. */
  function HandleAll(c: Ctx, events: seq<Event>, env: Env): (r: Step)
    ensures c.status == Crashed || events == [] ==> r == Step(c, [])
    ensures c.status != Running ==> r.ctx.status != Running
    ensures Quit in events ==> r.ctx.status != Running
    decreases |events|
  {
    if events == [] || c.status == Crashed then Step(c, [])
    else
      var s := HandleEvent(c, events[0], env);
      var played := PlayedVideo(s.effects);
      var rest := HandleAll(if played then s.ctx.(posted := []) else s.ctx, events[1..],
                            if played then AfterVideo(env) else env);
      assert Quit in events && events[0] != Quit ==> Quit in events[1..];
      Step(rest.ctx, s.effects + rest.effects)
  }

  /** What the event loop of a frame sees after the tick: when the tick played the
      attention video, the video has taken the queued events (the ones posted in the
      previous frame among them) and the clock has moved on. */
  function Batch(posted: seq<Event>, events: seq<Event>, tick: Step, env: Env): (seq<Event>, Env) {
    if PlayedVideo(tick.effects) then (events, AfterVideo(env)) else (posted + events, env)
  }

  /** One pass of the main loop. Events posted during the previous frame come first.
      Once the catalog load has started, the loading screen drains the queue itself
      and only notices Quit. */
  function Frame(c: Ctx, events: seq<Event>, env: Env): (r: Step)
    ensures c.status != Running ==> r == Step(c, [])
    ensures Quit in events ==> r.ctx.status != Running
  {
    if c.status != Running then Step(c, [])
    else
      var batch := c.posted + events;
      var c0 := c.(posted := []);
      if c0.mode == Loading && c0.loaderStarted then
        Tick(if Quit in batch then c0.(status := Stopped) else c0, env)
      else
        var t := Tick(c0, env);
        if t.ctx.status == Crashed then t
        else
          var b := Batch(c.posted, events, t, env);
          assert Quit in events ==> Quit in b.0;
          var h := HandleAll(t.ctx, b.0, b.1);
          Step(h.ctx, t.effects + h.effects)
  }

  // ---------------------------------------------------------------- runs of frames

  /** The input of one frame: the events pygame returns and the environment */
  datatype Input = Input(events: seq<Event>, env: Env)

  function Run(c: Ctx, inputs: seq<Input>): Step
    decreases |inputs|
  {
    if inputs == [] then Step(c, [])
    else
      var f := Frame(c, inputs[0].events, inputs[0].env);
      var rest := Run(f.ctx, inputs[1..]);
      Step(rest.ctx, f.effects + rest.effects)
  }

  /** Outside loading, when the tick does nothing, a frame hands the posted events and
      then the new ones to the event loop. */
  lemma FrameHandlesEvents(c: Ctx, events: seq<Event>, env: Env)
    requires c.status == Running && c.mode != Loading
    requires Tick(c.(posted := []), env) == Step(c.(posted := []), [])
    ensures Frame(c, events, env) == HandleAll(c.(posted := []), c.posted + events, env)
  {
  }

  /** While the catalog loads, one frame per deck runs exactly the loader's pass: with
      no Quit and the same disk, the loader state after the frames is `RunPass`'s. */
  lemma {:induction false} LoadingFramesRunPass(c: Ctx, inputs: seq<Input>, disk: L.Disk)
    requires c.mode == Loading && c.status == Running && c.loaderStarted && c.posted == []
    requires c.loader.index <= |c.loader.files|
    requires |inputs| == |c.loader.files| - c.loader.index
    requires forall i :: 0 <= i < |inputs| ==> inputs[i].env.disk == disk && Quit !in inputs[i].events
    ensures var r := Run(c, inputs).ctx;
      && r.mode == Loading && r.status == Running && r.loaderStarted && r.posted == []
      && r.loader == L.RunPass(c.loader, disk).state
    decreases |inputs|
  {
    if inputs != [] {
      var f := Frame(c, inputs[0].events, inputs[0].env);
      assert f.ctx.loader == L.ProcessNext(c.loader, disk).state;
      LoadingFramesRunPass(f.ctx, inputs[1..], disk);
    }
  }

  /** The frame after the last deck writes the cache and opens the main menu. */
  lemma LastLoadingFrameSaves(c: Ctx, events: seq<Event>, env: Env)
    requires c.mode == Loading && c.status == Running && c.loaderStarted
    requires c.loader.index >= |c.loader.files|
    requires Quit !in c.posted + events
    ensures var r := Frame(c, events, env);
      r.ctx.mode == MainMenu && r.ctx.status == Running && SaveCache(c.loader.cache) in r.effects
  {
  }

  /** Number of cache writes among the effects */
  function Saves(effects: seq<Effect>): nat {
    if effects == [] then 0
    else (if effects[0].SaveCache? then 1 else 0) + Saves(effects[1..])
  }

  lemma {:induction false} SavesAppend(a: seq<Effect>, b: seq<Effect>)
    ensures Saves(a + b) == Saves(a) + Saves(b)
    decreases |a|
  {
    if a == [] {
      assert a + b == b;
    } else {
      assert (a + b)[1..] == a[1..] + b;
      SavesAppend(a[1..], b);
    }
  }

  lemma {:induction false} NoSaveHasNoSaves(a: seq<Effect>)
    requires NoSave(a)
    ensures Saves(a) == 0
    decreases |a|
  {
    if a != [] {
      NoSaveHasNoSaves(a[1..]);
    }
  }

  /** The tick writes the cache exactly when it leaves the loading screen. */
  lemma TickSaves(c: Ctx, env: Env)
    ensures var r := Tick(c, env);
      Saves(r.effects) == (if c.mode == Loading && r.ctx.mode != Loading then 1 else 0)
  {
    var w := ModeWork(c, env);
    if w.ctx.status != Crashed {
      var i := Inactivity(w.ctx, env);
      SavesAppend(w.effects, i.effects);
      NoSaveHasNoSaves(i.effects);
    }
    if w.ctx.mode == Loading || c.mode != Loading {
      NoSaveHasNoSaves(w.effects);
    } else {
      assert w.effects == [SaveCache(c.loader.cache)];
    }
  }

  /** The event loop keeps the invariant, never enters or leaves the loading screen,
      never writes the cache, and once the catalog is loaded and not empty never
      raises. */
  lemma {:induction false} HandleAllKeeps(c: Ctx, events: seq<Event>, env: Env)
    requires Inv(c)
    ensures var r := HandleAll(c, events, env);
      && Inv(r.ctx)
      && (r.ctx.mode == Loading <==> c.mode == Loading)
      && r.ctx.loader == c.loader
      && Saves(r.effects) == 0
      && (c.mode != Loading && CatalogSize(c) > 0 && c.status != Crashed ==> r.ctx.status != Crashed)
    decreases |events|
  {
    if events != [] && c.status != Crashed {
      var s := HandleEvent(c, events[0], env);
      var played := PlayedVideo(s.effects);
      var next := if played then s.ctx.(posted := []) else s.ctx;
      var nextEnv := if played then AfterVideo(env) else env;
      HandleAllKeeps(next, events[1..], nextEnv);
      var rest := HandleAll(next, events[1..], nextEnv);
      SavesAppend(s.effects, rest.effects);
      NoSaveHasNoSaves(s.effects);
    }
  }

  lemma FrameKeeps(c: Ctx, events: seq<Event>, env: Env)
    requires Inv(c)
    ensures var r := Frame(c, events, env);
      && Inv(r.ctx)
      && (r.ctx.mode == Loading ==> c.mode == Loading)
      && Saves(r.effects) == (if c.mode == Loading && r.ctx.mode != Loading then 1 else 0)
      && (c.mode != Loading && CatalogSize(c) > 0 && c.status != Crashed ==> r.ctx.status != Crashed)
  {
    if c.status == Running {
      var batch := c.posted + events;
      var c0 := c.(posted := []);
      if c0.mode == Loading && c0.loaderStarted {
        TickSaves(if Quit in batch then c0.(status := Stopped) else c0, env);
      } else {
        var t := Tick(c0, env);
        TickSaves(c0, env);
        if t.ctx.status != Crashed {
          var b := Batch(c.posted, events, t, env);
          HandleAllKeeps(t.ctx, b.0, b.1);
          SavesAppend(t.effects, HandleAll(t.ctx, b.0, b.1).effects);
        }
      }
    }
  }

  /** Over any run, the invariant holds throughout, the cache is written once if and
      only if the run leaves the loading screen, and a non-empty catalog never makes
      the kiosk raise after loading. */
  lemma {:induction false} RunKeeps(c: Ctx, inputs: seq<Input>)
    requires Inv(c)
    ensures var r := Run(c, inputs);
      && Inv(r.ctx)
      && (r.ctx.mode == Loading ==> c.mode == Loading)
      && Saves(r.effects) == (if c.mode == Loading && r.ctx.mode != Loading then 1 else 0)
      && (c.mode != Loading && CatalogSize(c) > 0 && c.status != Crashed ==> r.ctx.status != Crashed)
    decreases |inputs|
  {
    if inputs != [] {
      var f := Frame(c, inputs[0].events, inputs[0].env);
      FrameKeeps(c, inputs[0].events, inputs[0].env);
      RunKeeps(f.ctx, inputs[1..]);
      SavesAppend(f.effects, Run(f.ctx, inputs[1..]).effects);
      if c.mode != Loading && CatalogSize(c) > 0 && c.status != Crashed {
        assert CatalogSize(f.ctx) == CatalogSize(c) by {
          FrameKeepsCatalog(c, inputs[0].events, inputs[0].env);
        }
      }
    }
  }

  /** After loading, frames never change the catalog. */
  lemma FrameKeepsCatalog(c: Ctx, events: seq<Event>, env: Env)
    requires c.mode != Loading
    ensures Frame(c, events, env).ctx.loader == c.loader
  {
    if c.status == Running {
      var t := Tick(c.(posted := []), env);
      if t.ctx.status != Crashed {
        var b := Batch(c.posted, events, t, env);
        HandleAllLoader(t.ctx, b.0, b.1);
      }
    }
  }

  lemma {:induction false} HandleAllLoader(c: Ctx, events: seq<Event>, env: Env)
    ensures HandleAll(c, events, env).ctx.loader == c.loader
    decreases |events|
  {
    if events != [] && c.status != Crashed {
      var s := HandleEvent(c, events[0], env);
      var played := PlayedVideo(s.effects);
      HandleAllLoader(if played then s.ctx.(posted := []) else s.ctx, events[1..],
                      if played then AfterVideo(env) else env);
    }
  }

  /** From start-up, the cache file is written at most once. */
  lemma CacheSavedAtMostOnce(start: int, inputs: seq<Input>)
    ensures Saves(Run(Initial(start), inputs).effects) <= 1
  {
    RunKeeps(Initial(start), inputs);
  }

  // ---------------------------------------------------------------- scenarios

  /** With an empty deck directory, pressing A on the picker's grid raises IndexError. */
  lemma EmptyCatalogConfirmRaises(c: Ctx, env: Env)
    requires Inv(c) && c.mode == PptMenu && c.status == Running && !c.inSlideshow
    requires CatalogSize(c) == 0 && c.picker.toolbar == P.GridFocus
    ensures HandleEvent(c, JoyButton(0), env).ctx.status == Crashed
  {
  }

  /** The attention video takes every queued event with it: an A press that Enter
      posted in the previous frame is lost, and the timer restarts from the clock
      after the video. */
  lemma AttentionVideoDrainsQueue(c: Ctx, env: Env)
    requires Inv(c) && c.mode == MainMenu && c.status == Running
    requires env.now - c.lastActivity > InactivityTimeout
    ensures Frame(c, [], env) ==
      Step(c.(lastActivity := env.afterVideo, posted := []), [PlayVideo(AttentionVideo)])
  {
  }

  /** A click handled after the attention video restarts the timer from the clock
      after the video, so the next frame does not replay it. */
  lemma ClickAfterAttentionVideo(c: Ctx, env: Env)
    requires Inv(c) && c.mode == MainMenu && c.status == Running
    requires env.now - c.lastActivity > InactivityTimeout
    ensures Frame(c, [MouseDown(0)], env).ctx.lastActivity == env.afterVideo
  {
  }

  /** The feature video polls the queue too: the A press that Enter posted earlier
      in the batch is gone after it. */
  lemma FeatureVideoDrainsQueue(c: Ctx, env: Env)
    requires Inv(c) && c.mode == MainMenu && c.status == Running && c.selected == 2
    ensures HandleAll(c, [KeyDown(Enter), JoyButton(0)], env).ctx.posted == []
  {
    var c1 := c.(posted := c.posted + [JoyButton(0)]);
    assert HandleEvent(c, KeyDown(Enter), env) == Step(c1, []);
    var s2 := HandleEvent(c1, JoyButton(0), env);
    assert s2.effects == [PlayVideo(FeatureVideo)];
    assert HandleAll(c1, [JoyButton(0)], env).ctx == s2.ctx.(posted := []);
    assert [KeyDown(Enter), JoyButton(0)][1..] == [JoyButton(0)];
  }

  /** Events handled after the feature video see the clock after it. */
  lemma EventsAfterFeatureVideo(c: Ctx, env: Env)
    requires Inv(c) && c.mode == MainMenu && c.status == Running && c.selected == 2
    ensures HandleAll(c, [JoyButton(0), MouseDown(0)], env).ctx.lastActivity == env.afterVideo
  {
    var s1 := HandleEvent(c, JoyButton(0), env);
    assert s1.effects == [PlayVideo(FeatureVideo)] && s1.ctx.mode == MainMenu;
    assert HandleEvent(s1.ctx.(posted := []), MouseDown(0), AfterVideo(env)).ctx.lastActivity == env.afterVideo;
    assert [JoyButton(0), MouseDown(0)][1..] == [MouseDown(0)];
  }

  /** While a slideshow runs, picker input is not interpreted: the only change is the
      slideshow flag following the process poll. */
  lemma SlideshowIgnoresInput(c: Ctx, e: Event, env: Env)
    requires c.mode == PptMenu && c.inSlideshow && c.status != Crashed && e != Quit
    ensures HandleEvent(c, e, env).ctx == c.(inSlideshow := env.pptRunning)
  {
  }

  /** PowerPoint gone: the frame's poll clears the flag and raises the window once;
      later polls do nothing more. */
  lemma SlideshowEndsOnce(c: Ctx, env: Env)
    requires c.mode == PptMenu && c.inSlideshow && c.status != Crashed && !env.pptRunning
    ensures Tick(c, env).ctx == c.(inSlideshow := false)
    ensures Tick(c, env).effects == [BringToFront]
    ensures Tick(Tick(c, env).ctx, env) == Step(c.(inSlideshow := false), [])
  {
  }
}

=== FILE: controller.dfy ===
/** The companion controller script that runs beside a PowerPoint slideshow: it turns
    gamepad events into key presses for PowerPoint and exits when PowerPoint goes
    away or when B is pressed. Key injection, sleeping and killing the process are
    returned as effects; the process table and the gamepad reads are inputs. */
module Controller {
  import opened Wrappers
  import opened Text

  /** One event from the `inputs` library: its type, code and state */
  datatype GamepadEvent = GamepadEvent(evType: string, code: string, state: int)

  datatype Effect = Press(key: string) | Sleep(ms: nat) | KillPowerPoint | Exit(code: int)

  // ---------------------------------------------------------------- process poll

  /** A process whose (present, non-empty) name contains "powerpnt" in lower case */
  predicate IsPowerPointName(name: Option<string>) {
    name.Some? && name.value != "" && Contains(Lower(name.value), "powerpnt")
  }

  predicate AnyPowerPoint(names: seq<Option<string>>) {
    exists i :: 0 <= i < |names| && IsPowerPointName(names[i])
  }

  /** `is_ppt_running`: scan the process names and stop at the first match */
  method IsPptRunning(names: seq<Option<string>>) returns (running: bool)
    ensures running <==> AnyPowerPoint(names)
  {
    var i := 0;
    while i < |names|
      invariant 0 <= i <= |names|
      invariant forall j :: 0 <= j < i ==> !IsPowerPointName(names[j])
    {
      var name := names[i];
      if name.Some? && name.value != "" && Contains(Lower(name.value), "powerpnt") {
        return true;
      }
      i := i + 1;
    }
    return false;
  }

  function Present(names: seq<string>): (r: seq<Option<string>>)
    ensures |r| == |names| && forall i :: 0 <= i < |names| ==> r[i] == Some(names[i])
  {
    seq(|names|, i requires 0 <= i < |names| => Some(names[i]))
  }

  /** The kiosk's own poll reads `process.name()`, always a string, and has no
      emptiness guard; an empty name never contains "powerpnt", so both polls agree. */
  lemma UnguardedPollAgrees(names: seq<string>)
    ensures (exists i :: 0 <= i < |names| && Contains(Lower(names[i]), "powerpnt"))
        <==> AnyPowerPoint(Present(names))
  {
    assert !Contains(Lower(""), "powerpnt");
    forall i | 0 <= i < |names|
      ensures IsPowerPointName(Present(names)[i]) <==> Contains(Lower(names[i]), "powerpnt")
    {
    }
  }

  // ---------------------------------------------------------------- one event

  predicate IsPress(ev: GamepadEvent) {
    ev.evType == "Key" && ev.state == 1
  }

  predicate IsExitEvent(ev: GamepadEvent) {
    IsPress(ev) && ev.code == "BTN_EAST"
  }

  /** What one event does. `runningAfterEsc` is the process poll made one second
      after Escape was sent for the B button. */
  function Action(ev: GamepadEvent, runningAfterEsc: bool): (r: seq<Effect>)
    ensures r != [] <==>
      || (IsPress(ev) && ev.code in {"BTN_SOUTH", "BTN_EAST", "BTN_WEST"})
      || (ev.evType == "Absolute" && ev.code == "ABS_HAT0Y" && ev.state in {-1, 1})
    ensures IsExitEvent(ev) ==>
      && r[0] == Press("esc")
      && r[|r| - 1] == Exit(0)
      && (KillPowerPoint in r <==> runningAfterEsc)
    ensures !IsExitEvent(ev) ==> |r| <= 1 && (r != [] ==> r[0].Press?)
  {
    if IsPress(ev) then
      if ev.code == "BTN_SOUTH" then [Press("pagedown")]
      else if ev.code == "BTN_EAST" then
        [Press("esc"), Sleep(1000)] + (if runningAfterEsc then [KillPowerPoint] else []) + [Exit(0)]
      else if ev.code == "BTN_WEST" then [Press("pagedown")]
      else []
    else if ev.evType == "Absolute" then
      if ev.code == "ABS_HAT0Y" then
        if ev.state == -1 then [Press("pageup")]
        else if ev.state == 1 then [Press("pagedown")]
        else []
      else []
    else []
  }

  /** A and X both advance the slide; the D-pad moves back with Up and forward with Down. */
  lemma KeyTable(state: int, b: bool)
    ensures Action(GamepadEvent("Key", "BTN_SOUTH", 1), b) == [Press("pagedown")]
    ensures Action(GamepadEvent("Key", "BTN_WEST", 1), b) == [Press("pagedown")]
    ensures Action(GamepadEvent("Absolute", "ABS_HAT0Y", -1), b) == [Press("pageup")]
    ensures Action(GamepadEvent("Absolute", "ABS_HAT0Y", 1), b) == [Press("pagedown")]
    ensures Action(GamepadEvent("Absolute", "ABS_HAT0Y", 0), b) == []
    ensures state != 1 ==> Action(GamepadEvent("Key", "BTN_EAST", state), b) == []
  {
  }

  // ---------------------------------------------------------------- one batch

  datatype BatchResult = BatchResult(effects: seq<Effect>, exited: bool)

  /** The events of one `get_gamepad()` read, in order, up to the first B press */
  function RunBatch(events: seq<GamepadEvent>, runningAfterEsc: bool): (r: BatchResult)
    ensures r.exited <==> exists i :: 0 <= i < |events| && IsExitEvent(events[i])
    ensures r.exited ==> |r.effects| > 0 && r.effects[|r.effects| - 1] == Exit(0)
    ensures !r.exited ==> forall k :: 0 <= k < |r.effects| ==> r.effects[k].Press?
    decreases |events|
  {
    if events == [] then BatchResult([], false)
    else
      var a := Action(events[0], runningAfterEsc);
      if IsExitEvent(events[0]) then BatchResult(a, true)
      else
        var rest := RunBatch(events[1..], runningAfterEsc);
        assert forall i :: 1 <= i < |events| ==> events[i] == events[1..][i - 1];
        BatchResult(a + rest.effects, rest.exited)
  }

  /** What a run of events does when every event is acted on, in order, with no
      stop at a B press */
  function Acted(events: seq<GamepadEvent>, runningAfterEsc: bool): seq<Effect>
    decreases |events|
  {
    if events == [] then [] else Action(events[0], runningAfterEsc) + Acted(events[1..], runningAfterEsc)
  }

  /** The position of the first B press in a batch, or its length when there is none */
  function FirstExit(events: seq<GamepadEvent>): (k: nat)
    ensures k <= |events|
    ensures forall i :: 0 <= i < k ==> !IsExitEvent(events[i])
    ensures k < |events| ==> IsExitEvent(events[k])
    decreases |events|
  {
    if events == [] || IsExitEvent(events[0]) then 0
    else
      var k := FirstExit(events[1..]);
      assert forall i :: 1 <= i <= k ==> events[i] == events[1..][i - 1];
      1 + k
  }

  /** One event off the front: a batch without a B press there acts on it and goes on */
  lemma BatchStep(events: seq<GamepadEvent>, b: bool)
    requires events != [] && !IsExitEvent(events[0])
    ensures RunBatch(events, b).effects == Action(events[0], b) + RunBatch(events[1..], b).effects
    ensures FirstExit(events) == 1 + FirstExit(events[1..])
  {
  }

  lemma ActedStep(events: seq<GamepadEvent>, b: bool)
    requires events != []
    ensures Acted(events, b) == Action(events[0], b) + Acted(events[1..], b)
  {
  }

  /** A batch acts on every event up to and including the first B press, in order,
      and on nothing after it. */
  lemma {:induction false} BatchActsInOrder(events: seq<GamepadEvent>, b: bool)
    ensures var k := FirstExit(events);
      RunBatch(events, b).effects == Acted(events[..if k < |events| then k + 1 else k], b)
    decreases |events|
  {
    if events != [] {
      var e := events[0];
      if IsExitEvent(e) {
        var pre := events[..1];
        assert pre[0] == e && pre[1..] == [];
        ActedStep(pre, b);
      } else {
        var rest := events[1..];
        var k := FirstExit(rest);
        var n := if k < |rest| then k + 1 else k;
        BatchStep(events, b);
        BatchActsInOrder(rest, b);
        var pre := events[..n + 1];
        assert pre[0] == e && pre[1..] == rest[..n];
        ActedStep(pre, b);
      }
    }
  }

  // ---------------------------------------------------------------- the loop

  /** One read of the gamepad: a batch of events, or one of the two exceptions */
  datatype Read = Events(events: seq<GamepadEvent>) | Unplugged | ReadFailed

  /** One turn of the loop: the process poll at the loop head, the read, and the
      poll made after a B press */
  datatype Poll = Poll(pptRunning: bool, read: Read, runningAfterEsc: bool)

  /** The turn's read holds a B press */
  predicate ExitsBatch(p: Poll) {
    p.read.Events? && exists i :: 0 <= i < |p.read.events| && IsExitEvent(p.read.events[i])
  }

  /** The body of one turn after the loop-head poll: the batch, or the one-second
      pause after a read error */
  function Turn(p: Poll): (r: BatchResult)
    ensures r.exited <==> ExitsBatch(p)
    ensures r.exited ==> |r.effects| > 0 && r.effects[|r.effects| - 1] == Exit(0)
  {
    match p.read
    case Events(evs) => RunBatch(evs, p.runningAfterEsc)
    case _ => BatchResult([Sleep(1000)], false)
  }

  datatype Ending = PowerPointClosed | ExitButton | StillPolling

  /** The effects so far, the number of completed turns, and why the loop stopped */
  datatype Session = Session(effects: seq<Effect>, turns: nat, ending: Ending)

  /** `main`: keep polling while PowerPoint runs; an exception while reading costs a
      one-second pause and the loop goes on; B ends the script with exit code 0. */
  function Loop(polls: seq<Poll>): (r: Session)
    ensures r.turns <= |polls|
    ensures forall j :: 0 <= j < r.turns ==> polls[j].pptRunning && !ExitsBatch(polls[j])
    ensures r.ending == PowerPointClosed ==> r.turns < |polls| && !polls[r.turns].pptRunning
    ensures r.ending == ExitButton ==>
      && r.turns < |polls| && polls[r.turns].pptRunning && ExitsBatch(polls[r.turns])
      && |r.effects| > 0 && r.effects[|r.effects| - 1] == Exit(0)
    ensures r.ending == StillPolling ==> r.turns == |polls|
    decreases |polls|
  {
    if polls == [] then Session([], 0, StillPolling)
    else
      var p := polls[0];
      if !p.pptRunning then Session([], 0, PowerPointClosed)
      else
        var here := Turn(p);
        if here.exited then Session(here.effects, 0, ExitButton)
        else
          var rest := Loop(polls[1..]);
          assert forall j :: 1 <= j < |polls| ==> polls[1..][j - 1] == polls[j];
          Session(here.effects + [Sleep(100)] + rest.effects, rest.turns + 1, rest.ending)
  }

  /** The effects of the first `n` turns, each followed by the loop's 100 ms pause */
  function TurnsEffects(polls: seq<Poll>, n: nat): seq<Effect>
    requires n <= |polls|
    decreases n
  {
    if n == 0 then [] else Turn(polls[0]).effects + [Sleep(100)] + TurnsEffects(polls[1..], n - 1)
  }

  /** One completed turn off the front of the loop */
  lemma LoopStep(polls: seq<Poll>)
    requires polls != [] && polls[0].pptRunning && !Turn(polls[0]).exited
    ensures var rest := Loop(polls[1..]);
      Loop(polls) == Session(Turn(polls[0]).effects + [Sleep(100)] + rest.effects, rest.turns + 1, rest.ending)
  {
  }

  /** The turn that ends the loop: no turn completes, and only a B press leaves effects */
  lemma LoopStop(polls: seq<Poll>)
    requires polls == [] || !polls[0].pptRunning || Turn(polls[0]).exited
    ensures Loop(polls).turns == 0
    ensures Loop(polls).ending == ExitButton ==> Loop(polls).effects == Turn(polls[0]).effects
    ensures Loop(polls).ending != ExitButton ==> Loop(polls).effects == []
  {
  }

  /** The loop emits exactly its completed turns, in order, each followed by the
      pause, and then the effects of the turn that pressed B, if one did. */
  lemma {:induction false} LoopEffects(polls: seq<Poll>)
    ensures var r := Loop(polls);
      r.effects == TurnsEffects(polls, r.turns)
                   + (if r.ending == ExitButton then Turn(polls[r.turns]).effects else [])
    decreases |polls|
  {
    if polls == [] || !polls[0].pptRunning || Turn(polls[0]).exited {
      LoopStop(polls);
    } else {
      var rest := Loop(polls[1..]);
      LoopStep(polls);
      LoopEffects(polls[1..]);
      assert TurnsEffects(polls, rest.turns + 1)
        == Turn(polls[0]).effects + [Sleep(100)] + TurnsEffects(polls[1..], rest.turns);
      if rest.ending == ExitButton {
        assert polls[1..][rest.turns] == polls[rest.turns + 1];
      }
    }
  }

  /** Read errors never end the loop: with PowerPoint running throughout, a run of
      failed reads keeps polling. */
  lemma {:induction false} ErrorsKeepPolling(polls: seq<Poll>)
    requires forall j :: 0 <= j < |polls| ==> polls[j].pptRunning && !polls[j].read.Events?
    ensures Loop(polls).ending == StillPolling
    decreases |polls|
  {
    if polls != [] {
      ErrorsKeepPolling(polls[1..]);
    }
  }
}

=== FILE: loader.dfy ===
/** The deck catalog and the incremental thumbnail-cache loader.

    At start-up the kiosk reads the side-car cache (deck file name -> MD5 of the
    deck's bytes), filters the directory listing down to slide decks, and then
    processes one deck per frame: a deck whose cached MD5 matches and whose
    thumbnail image is still on disk is a hit; any other deck is exported again by
    the presentation engine, and only a successful export updates the cache. Once
    every deck is processed the cache is written back, once.

    The file system and the presentation engine are oracles: `md5` stands for the
    hash of a deck's bytes, `fileExists` for `os.path.exists`, and `exportOk` for
    whether opening the deck and exporting slide 1 to a JPEG and loading it back
    succeeds. Deck paths lie in the deck directory; the music file `BgmPath` is
    relative to the working directory. */
module Loader {
  import opened Wrappers
  import opened Text

  /** What `json.load` of the cache file yields: no file, a string map, or an error */
  datatype CacheFile = NoCacheFile | CacheFile(entries: map<string, string>) | UnreadableCacheFile

  datatype Disk = Disk(
    listing: seq<string>,
    cacheFile: CacheFile,
    md5: string -> string,
    fileExists: string -> bool,
    exportOk: string -> bool)

  /** `ppt_files`, `loading_index`, `thumbnail_cache` and `thumbnails` (deck name ->
      the image file that was loaded for it) */
  datatype State = State(
    files: seq<string>,
    index: nat,
    cache: map<string, string>,
    thumbnails: map<string, string>)

  // ---------------------------------------------------------------- catalog

  predicate IsDeckName(f: string) {
    EndsWith(f, ".ppt") || EndsWith(f, ".pptx")
  }

  /** The listing entries that end in ".ppt" or ".pptx", in listing order */
  function Catalog(listing: seq<string>): (r: seq<string>)
    ensures forall f :: f in r <==> f in listing && IsDeckName(f)
    ensures |r| <= |listing|
    ensures (forall i :: 0 <= i < |listing| ==> IsDeckName(listing[i])) ==> r == listing
  {
    if listing == [] then []
    else if IsDeckName(listing[0]) then [listing[0]] + Catalog(listing[1..])
    else Catalog(listing[1..])
  }

  /** Filtering distributes over concatenation, so the catalog keeps listing order. */
  lemma {:induction false} CatalogAppend(a: seq<string>, b: seq<string>)
    ensures Catalog(a + b) == Catalog(a) + Catalog(b)
    decreases |a|
  {
    if a == [] {
      assert a + b == b;
    } else {
      assert (a + b)[0] == a[0] && (a + b)[1..] == a[1..] + b;
      CatalogAppend(a[1..], b);
    }
  }

  predicate Distinct(xs: seq<string>) {
    forall i, j :: 0 <= i < j < |xs| ==> xs[i] != xs[j]
  }

  /** A directory lists each name once, and so does its catalog. */
  lemma {:induction false} CatalogDistinct(listing: seq<string>)
    requires Distinct(listing)
    ensures Distinct(Catalog(listing))
    decreases |listing|
  {
    if listing != [] {
      CatalogDistinct(listing[1..]);
      assert listing[0] !in listing[1..];
    }
  }

  // ---------------------------------------------------------------- one tick

  /** The image file for a deck with a given hash: the deck's name without its
      extension, then "_thumbnail_", the hash, and ".jpg" */
  function ThumbnailName(f: string, md5: string): (r: string)
    ensures StartsWith(r, Stem(f)) && EndsWith(r, ".jpg")
    ensures |r| == |Stem(f)| + |"_thumbnail_"| + |md5| + 4
    ensures r[|Stem(f)| .. |r| - 4] == "_thumbnail_" + md5
  {
    Stem(f) + "_thumbnail_" + md5 + ".jpg"
  }

  /** The image name records the hash: a deck whose bytes changed gets a new image
      file, so the old image cannot pass the hit check for the new hash. */
  lemma ThumbnailNameDeterminesHash(f: string, m1: string, m2: string)
    requires ThumbnailName(f, m1) == ThumbnailName(f, m2)
    ensures m1 == m2
  {
    var n := ThumbnailName(f, m1);
    var tag := "_thumbnail_";
    assert n[|Stem(f)| .. |n| - 4] == tag + m1 == tag + m2;
    assert m1 == (tag + m1)[|tag|..] && m2 == (tag + m2)[|tag|..];
  }

  /** The first loading frame: read the cache file (an unreadable one raises, here
      None), build the catalog, start with no thumbnails. */
  function Begin(disk: Disk): (r: Option<State>)
    ensures r.None? <==> disk.cacheFile.UnreadableCacheFile?
    ensures r.Some? ==> r.value.files == Catalog(disk.listing) && r.value.index == 0
    ensures r.Some? ==> r.value.thumbnails == map[]
    ensures r.Some? && disk.cacheFile.CacheFile? ==> r.value.cache == disk.cacheFile.entries
    ensures r.Some? && disk.cacheFile.NoCacheFile? ==> r.value.cache == map[]
  {
    match disk.cacheFile
    case UnreadableCacheFile => None
    case NoCacheFile => Some(State(Catalog(disk.listing), 0, map[], map[]))
    case CacheFile(entries) => Some(State(Catalog(disk.listing), 0, entries, map[]))
  }

  /** The cache-hit rule: the stored hash matches and the image is still on disk. */
  predicate Hit(cache: map<string, string>, f: string, disk: Disk) {
    Get(cache, f) == Some(disk.md5(f)) && disk.fileExists(ThumbnailName(f, disk.md5(f)))
  }

  /** The result of one tick, and whether the presentation engine was asked to export */
  datatype Processed = Processed(state: State, engineUsed: bool)

  function ProcessNext(s: State, disk: Disk): (r: Processed)
    requires s.index < |s.files|
    ensures r.state.files == s.files && r.state.index == s.index + 1
    ensures var f := s.files[s.index];
      var image := ThumbnailName(f, disk.md5(f));
      && (r.engineUsed <==> !Hit(s.cache, f, disk))
      && (Hit(s.cache, f, disk) ==>
            r.state.cache == s.cache && r.state.thumbnails == s.thumbnails[f := image])
      && (!Hit(s.cache, f, disk) && disk.exportOk(f) ==>
            r.state.cache == s.cache[f := disk.md5(f)] && r.state.thumbnails == s.thumbnails[f := image])
      && (!Hit(s.cache, f, disk) && !disk.exportOk(f) ==>
            r.state.cache == s.cache && r.state.thumbnails == s.thumbnails)
  {
    var f := s.files[s.index];
    var md5 := disk.md5(f);
    var image := ThumbnailName(f, md5);
    if Get(s.cache, f) == Some(md5) && disk.fileExists(image) then
      Processed(s.(index := s.index + 1, thumbnails := s.thumbnails[f := image]), false)
    else if disk.exportOk(f) then
      Processed(s.(index := s.index + 1, thumbnails := s.thumbnails[f := image],
                   cache := s.cache[f := md5]), true)
    else
      Processed(s.(index := s.index + 1), true)
  }

  /** A changed deck (its hash differs from the cached one) is always re-exported. */
  lemma ChangedDeckIsExported(s: State, disk: Disk)
    requires s.index < |s.files|
    requires Get(s.cache, s.files[s.index]) != Some(disk.md5(s.files[s.index]))
    ensures ProcessNext(s, disk).engineUsed
  {
  }

  // ---------------------------------------------------------------- a whole pass

  /** The final state after every remaining deck is processed, and the progress the
      loading screen shows after each tick (the number of decks processed so far;
      the total is `|files|`). */
  datatype Pass = Pass(state: State, progress: seq<nat>)

  function RunPass(s: State, disk: Disk): (r: Pass)
    requires s.index <= |s.files|
    ensures r.state.files == s.files && r.state.index == |s.files|
    ensures |r.progress| == |s.files| - s.index
    ensures forall i :: 0 <= i < |r.progress| ==> r.progress[i] == s.index + i + 1
    decreases |s.files| - s.index
  {
    if s.index == |s.files| then Pass(s, [])
    else
      var rest := RunPass(ProcessNext(s, disk).state, disk);
      Pass(rest.state, [s.index + 1] + rest.progress)
  }

  /** A full pass over a catalog of N decks reports exactly N ticks, the last one N of N. */
  lemma PassReportsEveryDeck(files: seq<string>, cache: map<string, string>, disk: Disk)
    requires |files| > 0
    ensures var p := RunPass(State(files, 0, cache, map[]), disk);
      |p.progress| == |files| && p.progress[|files| - 1] == |files|
  {
  }

  /** What one tick does to a single name: the processed deck gets its thumbnail and
      current hash when it hits or exports; every other name is untouched. */
  lemma ProcessNextEntry(s: State, disk: Disk, f: string)
    requires s.index < |s.files|
    ensures var r := ProcessNext(s, disk).state;
      if f == s.files[s.index] && (Hit(s.cache, f, disk) || disk.exportOk(f)) then
        Get(r.thumbnails, f) == Some(ThumbnailName(f, disk.md5(f))) && Get(r.cache, f) == Some(disk.md5(f))
      else
        Get(r.thumbnails, f) == Get(s.thumbnails, f) && Get(r.cache, f) == Get(s.cache, f)
  {
  }

  /** What a pass leaves behind for each name: a remaining deck that was a hit or
      exported successfully has its thumbnail and the current hash cached; a failed
      export leaves both entries as they were; every other name is untouched (stale
      cache entries are kept). */
  lemma {:induction false} PassEntry(s: State, disk: Disk, f: string)
    requires s.index <= |s.files|
    requires Distinct(s.files)
    ensures var r := RunPass(s, disk).state;
      if f in s.files[s.index..] && (Hit(s.cache, f, disk) || disk.exportOk(f)) then
        Get(r.thumbnails, f) == Some(ThumbnailName(f, disk.md5(f))) && Get(r.cache, f) == Some(disk.md5(f))
      else
        Get(r.thumbnails, f) == Get(s.thumbnails, f) && Get(r.cache, f) == Get(s.cache, f)
    decreases |s.files| - s.index
  {
    if s.index < |s.files| {
      var g := s.files[s.index];
      var t := ProcessNext(s, disk).state;
      assert s.files[s.index..] == [g] + s.files[s.index + 1..];
      ProcessNextEntry(s, disk, f);
      PassEntry(t, disk, f);
      if f == g {
        assert f !in s.files[s.index + 1..];
      } else {
        assert Hit(t.cache, f, disk) == Hit(s.cache, f, disk);
      }
    }
  }
}

=== FILE: picker.dfy ===
/** The deck picker's navigation machine: a grid of four tiles per row and three rows
    per page over the catalog, plus a three-button toolbar (Previous Page, Return to
    Main Menu, Next Page) that competes with the grid for directional input.

    The picker state mirrors the kiosk's three globals: `current_page`,
    `ppt_selected_index` (an absolute index into the catalog) and `toolbar_index`
    (0 = focus on the grid, 1 = Prev, 2 = Home, 3 = Next). The catalog size `n` is
    fixed while the picker is in use and is passed to every operation. */
module Picker {

  const TilesPerRow: int := 4
  const RowsPerPage: int := 3
  const TilesPerPage: int := TilesPerRow * RowsPerPage

  /** `toolbar_index` values */
  const GridFocus: int := 0
  const PrevButton: int := 1
  const HomeButton: int := 2
  const NextButton: int := 3

  datatype Picker = Picker(page: int, index: int, toolbar: int)

  function Min(a: int, b: int): int {
    if a <= b then a else b
  }

  function Max(a: int, b: int): int {
    if a >= b then a else b
  }

  /** Absolute index of the first tile of `page` */
  function PageStart(page: int): int {
    page * TilesPerPage
  }

  /** One past the last occupied tile of `page` in a catalog of `n` decks */
  function PageEnd(page: int, n: nat): int {
    Min(PageStart(page) + TilesPerPage, n)
  }

  predicate OnPage(i: int, page: int, n: nat) {
    PageStart(page) <= i < PageEnd(page, n)
  }

  /** Number of pages, `ceil(n / TilesPerPage)` */
  function PageCount(n: nat): nat {
    (n + TilesPerPage - 1) / TilesPerPage
  }

  predicate ToolbarValid(t: int) {
    GridFocus <= t <= NextButton
  }

  /** What holds of every picker state the kiosk can reach once the catalog is loaded:
      the focus is one of the four slots, and the selection is a tile of the current
      page. An empty catalog has no tiles, and the selection then stays at 0 on page 0. */
  predicate Consistent(p: Picker, n: nat) {
    && ToolbarValid(p.toolbar)
    && 0 <= p.page
    && if n == 0 then p.page == 0 && p.index == 0 else OnPage(p.index, p.page, n)
  }

  /** Row and column of the selected tile within its page */
  function Row(p: Picker): int {
    (p.index - PageStart(p.page)) / TilesPerRow
  }

  function Column(p: Picker): int {
    (p.index - PageStart(p.page)) % TilesPerRow
  }

  // ---------------------------------------------------------------- moves

  /** Left: on the toolbar, step towards Prev, and from Prev back to the grid; on the
      grid, step back one tile unless the selection is the page's first tile. */
  function MoveLeft(p: Picker, n: nat): (r: Picker)
    ensures r.page == p.page
    ensures r.toolbar != GridFocus ==> r.index == p.index
    ensures p.toolbar != GridFocus ==> r.index == p.index
    ensures Consistent(p, n) ==> Consistent(r, n)
    ensures p.toolbar == GridFocus ==> r.toolbar == GridFocus
    ensures p.toolbar == GridFocus ==>
      (if PageStart(p.page) < p.index then r.index == p.index - 1 else r.index == p.index)
    ensures p.toolbar == GridFocus && OnPage(p.index, p.page, n) ==> OnPage(r.index, r.page, n)
    ensures p.toolbar == HomeButton || p.toolbar == NextButton ==> r.toolbar == p.toolbar - 1
    ensures p.toolbar == PrevButton ==> r.toolbar == GridFocus
  {
    if p.toolbar > PrevButton then p.(toolbar := p.toolbar - 1)
    else if p.toolbar == PrevButton then p.(toolbar := GridFocus)
    else if p.toolbar == GridFocus then
      (if p.index > PageStart(p.page) then p.(index := p.index - 1) else p)
    else p
  }

  /** Right: on the grid, step forward one tile unless it is the page's last occupied
      tile; on the toolbar, step towards Next and stop there. */
  function MoveRight(p: Picker, n: nat): (r: Picker)
    ensures r.page == p.page
    ensures r.toolbar != GridFocus ==> r.index == p.index
    ensures p.toolbar != GridFocus ==> r.index == p.index
    ensures Consistent(p, n) ==> Consistent(r, n)
    ensures p.toolbar == GridFocus ==> r.toolbar == GridFocus
    ensures p.toolbar == GridFocus ==>
      (if p.index + 1 < PageEnd(p.page, n) then r.index == p.index + 1 else r.index == p.index)
    ensures p.toolbar == GridFocus && OnPage(p.index, p.page, n) ==> OnPage(r.index, r.page, n)
    ensures p.toolbar == PrevButton || p.toolbar == HomeButton ==> r.toolbar == p.toolbar + 1
    ensures p.toolbar == NextButton ==> r == p
  {
    if p.toolbar == GridFocus then
      (if p.index + 1 < PageEnd(p.page, n) then p.(index := p.index + 1) else p)
    else if p.toolbar < NextButton then p.(toolbar := p.toolbar + 1)
    else p
  }

  /** Up: from the top row of the page the focus moves to the Prev button; elsewhere
      on the grid the selection moves up one row; from any toolbar slot the focus
      returns to the grid. */
  function MoveUp(p: Picker, n: nat): (r: Picker)
    ensures r.page == p.page
    ensures r.toolbar != GridFocus ==> r.index == p.index
    ensures p.toolbar != GridFocus ==> r.index == p.index
    ensures Consistent(p, n) ==> Consistent(r, n)
    ensures p.toolbar == GridFocus ==>
      (r.toolbar == PrevButton <==> p.index - PageStart(p.page) < TilesPerRow)
    ensures p.toolbar == GridFocus && r.toolbar == GridFocus ==> r.index == p.index - TilesPerRow
    ensures p.toolbar == GridFocus && p.index - PageStart(p.page) >= TilesPerRow ==>
      r.toolbar == GridFocus
    ensures p.toolbar == GridFocus && OnPage(p.index, p.page, n) && r.toolbar == GridFocus ==>
      OnPage(r.index, r.page, n)
    ensures p.toolbar != GridFocus ==> r.toolbar == GridFocus
  {
    if p.toolbar == GridFocus then
      if p.index - PageStart(p.page) < TilesPerRow then p.(toolbar := PrevButton)
      else p.(index := p.index - TilesPerRow)
    else p.(toolbar := GridFocus)
  }

  /** Down: on the grid the selection moves down one row when that tile is occupied,
      otherwise the focus moves to the Prev button; on the toolbar the focus is set
      to the Prev button. */
  function MoveDown(p: Picker, n: nat): (r: Picker)
    ensures r.page == p.page
    ensures r.toolbar != GridFocus ==> r.index == p.index
    ensures p.toolbar != GridFocus ==> r.index == p.index
    ensures Consistent(p, n) ==> Consistent(r, n)
    ensures p.toolbar == GridFocus ==>
      (r.toolbar == PrevButton <==> p.index + TilesPerRow > PageEnd(p.page, n) - 1)
    ensures p.toolbar == GridFocus && r.toolbar == GridFocus ==> r.index == p.index + TilesPerRow
    ensures p.toolbar == GridFocus && p.index + TilesPerRow <= PageEnd(p.page, n) - 1 ==>
      r.toolbar == GridFocus
    ensures p.toolbar == GridFocus && OnPage(p.index, p.page, n) && r.toolbar == GridFocus ==>
      OnPage(r.index, r.page, n)
    ensures p.toolbar != GridFocus ==> r.toolbar == PrevButton
  {
    if p.toolbar == GridFocus then
      var maxIndex := PageEnd(p.page, n) - 1;
      if p.index + TilesPerRow <= maxIndex then p.(index := p.index + TilesPerRow)
      else p.(toolbar := PrevButton)
    else p.(toolbar := PrevButton)
  }

  // ---------------------------------------------------------------- pages

  /** Next page, when one exists; the selection jumps to its first tile. */
  function NextPage(p: Picker, n: nat): (r: Picker)
    ensures r.toolbar == p.toolbar
    ensures (p.page + 1) * TilesPerPage >= n ==> r == p
    ensures (p.page + 1) * TilesPerPage < n ==>
      r.page == p.page + 1 && r.index == PageStart(r.page) && r.index < n
    ensures Consistent(p, n) ==> Consistent(r, n)
  {
    if (p.page + 1) * TilesPerPage < n then
      var page := p.page + 1;
      p.(page := page, index := PageStart(page))
    else p
  }

  /** Previous page, unless on the first; the selection jumps to its first tile. */
  function PrevPage(p: Picker, n: nat): (r: Picker)
    ensures r.toolbar == p.toolbar
    ensures p.page <= 0 ==> r == p
    ensures p.page > 0 ==> r.page == p.page - 1 && r.index == PageStart(r.page)
    ensures Consistent(p, n) ==> Consistent(r, n)
  {
    if p.page > 0 then
      var page := p.page - 1;
      p.(page := page, index := PageStart(page))
    else p
  }

  // ---------------------------------------------------------------- confirm

  /** What confirming the focused slot asks for: a page turn (the new picker state),
      a return to the main menu, or the launch of the deck at a catalog index. */
  datatype Selection = Turn(picker: Picker) | GoHome | Launch(index: int)

  function Select(p: Picker, n: nat): (r: Selection)
    ensures p.toolbar == PrevButton ==> r == Turn(PrevPage(p, n))
    ensures p.toolbar == HomeButton ==> r == GoHome
    ensures p.toolbar == NextButton ==> r == Turn(NextPage(p, n))
    ensures !(PrevButton <= p.toolbar <= NextButton) ==> r == Launch(p.index)
    ensures Consistent(p, n) && r.Launch? ==> p.toolbar == GridFocus && (n > 0 ==> 0 <= r.index < n)
  {
    if p.toolbar == PrevButton then Turn(PrevPage(p, n))
    else if p.toolbar == HomeButton then GoHome
    else if p.toolbar == NextButton then Turn(NextPage(p, n))
    else Launch(p.index)
  }

  // ---------------------------------------------------------------- command sequences

  /** The inputs the picker reacts to: the four directions, confirm, and the mouse
      clicks on the Prev / Next toolbar buttons (which turn the page directly). */
  datatype Nav = Left | Right | Up | Down | Confirm | ClickPrev | ClickNext

  function Apply(p: Picker, nav: Nav, n: nat): (r: Picker)
    ensures Consistent(p, n) ==> Consistent(r, n)
    ensures nav !in {Confirm, ClickPrev, ClickNext} ==> r.page == p.page
  {
    match nav
    case Left => MoveLeft(p, n)
    case Right => MoveRight(p, n)
    case Up => MoveUp(p, n)
    case Down => MoveDown(p, n)
    case Confirm => (match Select(p, n) case Turn(q) => q case _ => p)
    case ClickPrev => PrevPage(p, n)
    case ClickNext => NextPage(p, n)
  }

  function Run(p: Picker, navs: seq<Nav>, n: nat): Picker
    decreases |navs|
  {
    if navs == [] then p else Run(Apply(p, navs[0], n), navs[1..], n)
  }

  /** After any sequence of inputs the selection is still a tile of the current page
      and the focus is still one of the four slots. */
  lemma {:induction false} RunKeepsConsistent(p: Picker, navs: seq<Nav>, n: nat)
    requires Consistent(p, n)
    ensures Consistent(Run(p, navs, n), n)
    decreases |navs|
  {
    if navs != [] {
      RunKeepsConsistent(Apply(p, navs[0], n), navs[1..], n);
    }
  }

  /** Directional input alone never changes the page. */
  lemma {:induction false} DirectionsKeepPage(p: Picker, navs: seq<Nav>, n: nat)
    requires forall i :: 0 <= i < |navs| ==> navs[i] in {Left, Right, Up, Down}
    ensures Run(p, navs, n).page == p.page
    decreases |navs|
  {
    if navs != [] {
      DirectionsKeepPage(Apply(p, navs[0], n), navs[1..], n);
    }
  }

  // ---------------------------------------------------------------- partner lemmas

  /** A page turn happens exactly when the target page exists. */
  lemma NextPageMovesIff(p: Picker, n: nat)
    requires 0 <= p.page
    ensures NextPage(p, n).page == p.page + 1 <==> p.page + 1 < PageCount(n)
    ensures NextPage(p, n).page != p.page + 1 ==> NextPage(p, n) == p
  {
    var k := p.page + 1;
    if k * TilesPerPage < n {
      assert (n + TilesPerPage - 1) / TilesPerPage >= k + 1 by {
        assert n + TilesPerPage - 1 >= (k + 1) * TilesPerPage;
      }
    } else {
      assert (n + TilesPerPage - 1) / TilesPerPage <= k by {
        assert n + TilesPerPage - 1 < (k + 1) * TilesPerPage;
      }
    }
  }

  lemma PrevPageMovesIff(p: Picker, n: nat)
    ensures PrevPage(p, n).page == p.page - 1 <==> p.page > 0
    ensures p.page <= 0 ==> PrevPage(p, n) == p
  {
  }

  /** Up and Down on the grid are row moves: the column is kept. */
  lemma UpKeepsColumn(p: Picker, n: nat)
    requires Consistent(p, n) && p.toolbar == GridFocus
    requires MoveUp(p, n).toolbar == GridFocus
    ensures Row(MoveUp(p, n)) == Row(p) - 1
    ensures Column(MoveUp(p, n)) == Column(p)
  {
    var d := p.index - PageStart(p.page);
    assert d - TilesPerRow == MoveUp(p, n).index - PageStart(p.page);
    assert (d - TilesPerRow) / TilesPerRow == d / TilesPerRow - 1;
    assert (d - TilesPerRow) % TilesPerRow == d % TilesPerRow;
  }

  lemma DownKeepsColumn(p: Picker, n: nat)
    requires Consistent(p, n) && p.toolbar == GridFocus
    requires MoveDown(p, n).toolbar == GridFocus
    ensures Row(MoveDown(p, n)) == Row(p) + 1
    ensures Column(MoveDown(p, n)) == Column(p)
  {
    var d := p.index - PageStart(p.page);
    assert d + TilesPerRow == MoveDown(p, n).index - PageStart(p.page);
    assert (d + TilesPerRow) / TilesPerRow == d / TilesPerRow + 1;
    assert (d + TilesPerRow) % TilesPerRow == d % TilesPerRow;
  }

  /** Down undoes an Up that stayed on the grid, and Up undoes such a Down. */
  lemma UpThenDown(p: Picker, n: nat)
    requires Consistent(p, n) && p.toolbar == GridFocus
    requires MoveUp(p, n).toolbar == GridFocus
    ensures MoveDown(MoveUp(p, n), n) == p
  {
  }

  lemma DownThenUp(p: Picker, n: nat)
    requires Consistent(p, n) && p.toolbar == GridFocus
    requires MoveDown(p, n).toolbar == GridFocus
    ensures MoveUp(MoveDown(p, n), n) == p
  {
  }

  /** Right undoes a Left that moved the selection, and the reverse. */
  lemma LeftThenRight(p: Picker, n: nat)
    requires Consistent(p, n) && p.toolbar == GridFocus
    requires MoveLeft(p, n) != p
    ensures MoveRight(MoveLeft(p, n), n) == p
  {
  }

  lemma RightThenLeft(p: Picker, n: nat)
    requires Consistent(p, n) && p.toolbar == GridFocus
    requires MoveRight(p, n) != p
    ensures MoveLeft(MoveRight(p, n), n) == p
  {
  }

  /** On the toolbar, Left undoes Right below Next, and Right undoes Left above Prev. */
  lemma ToolbarRightThenLeft(p: Picker, n: nat)
    requires p.toolbar == PrevButton || p.toolbar == HomeButton
    ensures MoveLeft(MoveRight(p, n), n) == p
  {
  }

  lemma ToolbarLeftThenRight(p: Picker, n: nat)
    requires p.toolbar == HomeButton || p.toolbar == NextButton
    ensures MoveRight(MoveLeft(p, n), n) == p
  {
  }

  /** Turning forward and back lands on the first tile of the page started from. */
  lemma NextThenPrev(p: Picker, n: nat)
    requires Consistent(p, n)
    requires NextPage(p, n) != p
    ensures PrevPage(NextPage(p, n), n) == p.(index := PageStart(p.page))
  {
  }

  lemma PrevThenNext(p: Picker, n: nat)
    requires Consistent(p, n) && n > 0
    requires 0 < p.page
    ensures NextPage(PrevPage(p, n), n) == p.(index := PageStart(p.page))
  {
  }

  /** Ten decks fill one page and part of its last row: Down from tile 9 (row 2,
      column 1) has no tile below and moves the focus to the toolbar. */
  lemma DownFromPartialLastRow()
    ensures PageCount(10) == 1
    ensures MoveDown(Picker(0, 9, GridFocus), 10) == Picker(0, 9, PrevButton)
  {
  }
}

=== FILE: text.dfy ===
/** The handful of Python string operations the kiosk relies on: `str.lower`,
    the substring test `t in s`, `str.endswith`, and the root part of
    `os.path.splitext` for a bare file name. */
module Text {

  /** `str.lower` restricted to ASCII: 'A'..'Z' map to 'a'..'z', everything else is kept. */
  function LowerChar(c: char): (r: char)
    ensures 'A' <= c <= 'Z' ==> 'a' <= r <= 'z' && r as int - c as int == 32
    ensures !('A' <= c <= 'Z') ==> r == c
  {
    if 'A' <= c <= 'Z' then (c as int + 32) as char else c
  }

  function Lower(s: string): (r: string)
    ensures |r| == |s|
    ensures forall i :: 0 <= i < |s| ==> r[i] == LowerChar(s[i])
  {
    if s == [] then [] else [LowerChar(s[0])] + Lower(s[1..])
  }

  predicate StartsWith(s: string, prefix: string) {
    |prefix| <= |s| && s[..|prefix|] == prefix
  }

  /** `str.endswith` */
  predicate EndsWith(s: string, suffix: string) {
    |suffix| <= |s| && s[|s| - |suffix|..] == suffix
  }

  /** `t` occurs in `s` starting at position `k` */
  predicate OccursAt(s: string, t: string, k: int) {
    0 <= k && k + |t| <= |s| && s[k..k + |t|] == t
  }

  /** Python's `t in s` for strings, scanning `s` from the left */
  predicate Contains(s: string, t: string)
    decreases |s|
  {
    StartsWith(s, t) || (|s| > 0 && Contains(s[1..], t))
  }

  /** The scan agrees with the positional definition of a substring. */
  lemma {:induction false} ContainsIffOccurs(s: string, t: string)
    ensures Contains(s, t) <==> exists k :: OccursAt(s, t, k)
    decreases |s|
  {
    if |s| > 0 {
      ContainsIffOccurs(s[1..], t);
    }
    if Contains(s, t) {
      if StartsWith(s, t) {
        assert OccursAt(s, t, 0);
      } else {
        var k :| OccursAt(s[1..], t, k);
        assert s[1..][k..k + |t|] == s[k + 1..k + 1 + |t|];
        assert OccursAt(s, t, k + 1);
      }
    }
    if exists k :: OccursAt(s, t, k) {
      var k :| OccursAt(s, t, k);
      if k == 0 {
        assert StartsWith(s, t);
      } else {
        assert s[1..][k - 1..k - 1 + |t|] == s[k..k + |t|];
        assert OccursAt(s[1..], t, k - 1);
      }
    }
  }

  /** Position of the last `c` in `s`, or -1 (`str.rfind`) */
  function LastIndexOf(s: string, c: char): (r: int)
    ensures -1 <= r < |s|
    ensures r >= 0 ==> s[r] == c
    ensures forall k :: r < k < |s| ==> s[k] != c
    decreases |s|
  {
    if |s| == 0 then -1
    else if s[|s| - 1] == c then |s| - 1
    else LastIndexOf(s[..|s| - 1], c)
  }

  predicate HasNonDot(s: string) {
    exists k :: 0 <= k < |s| && s[k] != '.'
  }

  /** `os.path.splitext(name)[0]` for a name without directory separators: the part
      before the last '.', provided some character before that '.' is not itself a
      '.'; otherwise the whole name (".pptx" has no extension for Python). */
  function Stem(name: string): (r: string)
    ensures StartsWith(name, r)
    ensures r != name ==> |r| < |name| && name[|r|] == '.' && HasNonDot(r)
    ensures r != name ==> forall k :: |r| < k < |name| ==> name[k] != '.'
  {
    var dot := LastIndexOf(name, '.');
    if dot >= 0 && HasNonDot(name[..dot]) then name[..dot] else name
  }

  /** Stripping a dot-free extension from a stem that is not all dots gives the stem back. */
  lemma StemOfDeckName(stem: string, ext: string)
    requires HasNonDot(stem)
    requires forall k :: 0 <= k < |ext| ==> ext[k] != '.'
    ensures Stem(stem + "." + ext) == stem
  {
    var name := stem + "." + ext;
    assert name[|stem|] == '.';
    assert forall k :: |stem| < k < |name| ==> name[k] == ext[k - |stem| - 1];
    var dot := LastIndexOf(name, '.');
    assert dot == |stem|;
    assert name[..dot] == stem;
  }
}

=== FILE: wrappers.dfy ===
/** The optional-value datatype used where the kiosk reads a value that may be absent
    (a dictionary lookup, a list index, a cache file that may not parse). */
module Wrappers {

  datatype Option<+T> = None | Some(value: T)

  /** Python's `xs[i]`: a negative index counts from the end, and an index outside
      `-|xs| .. |xs|-1` raises IndexError (here: None). */
  function PyIndex<T>(xs: seq<T>, i: int): (r: Option<T>)
    ensures r.Some? <==> -|xs| <= i < |xs|
    ensures 0 <= i < |xs| ==> r == Some(xs[i])
    ensures -|xs| <= i < 0 ==> r == Some(xs[|xs| + i])
  {
    if 0 <= i < |xs| then Some(xs[i])
    else if -|xs| <= i < 0 then Some(xs[|xs| + i])
    else None
  }

  /** Python's `d.get(k)` on a string dictionary */
  function Get<K, V>(m: map<K, V>, k: K): (r: Option<V>)
    ensures r.Some? <==> k in m
    ensures k in m ==> r.value == m[k]
  {
    if k in m then Some(m[k]) else None
  }
}
